=== FILE: README.md ===
# Nearest grid points of weather models, and the form that exports them

This project models in Dafny the core of a small weather-model map tool
(`pyatmo`). For a query coordinate, the tool finds the `n` nearest nodes of
each requested model's regular latitude/longitude grid. It then files every
chosen node under the list of models that chose it, and exports one HTML or
KML marker per node: purple when several models share it, otherwise the
model's own colour. A Tk form in front of it collects the inputs and calls
the export.

Modules, following the program's structure:

- `Lattice` (`lattice.dfy`): `GridPointSelector.__init__`. Each axis is a
  half-open `np.arange`, and the points are their row-major product,
  latitude outer and longitude inner.
- `Selection` (`selection.dfy`): `select_closest_points`. It ranks all nodes
  by squared planar distance with an argsort (a permutation sorted by
  distance), then applies the Python slice `[:n]`.
- `Grouping` (`grouping.dfy`): the `point_groups` loop shared by `create_map`
  and `create_map_kml`. The loop fills a `defaultdict(list)` kept in
  insertion order. `ModelsSelecting` gives the independent meaning of a group.
- `MapGenerator` (`map_generator.dfy`): the model catalogue, the colour map,
  `_get_group_color` and `_get_kml_color`, and `_get_full_path`. It also
  models `create_map` / `create_map_kml` up to the point where the file is
  saved.
- `TeamForm` (`team_form.dfy`): the decision logic of `KMZGenerator`, lifted
  into pure functions:
  - the per-team model list;
  - `model_vars`, which is never cleared;
  - the input validation;
  - the `valid_models` filter;
  - the overwrite guard;
  - the call into the map module.
- `Scenarios` (`scenarios.dfy`): concrete requests against the real
  catalogue.
- `Hex` (`hex.dfy`): Python's `bytes.fromhex`, which `_get_kml_color`
  applies to colour names, and `bytes.hex` as its inverse.
- `Basics` and `Text` (`basics.dfy`, `text.dfy`): shared helpers.
  - `Option`, `Result` and distinctness.
  - Python's `str.strip`, ASCII-only `str.lower`, `str.endswith`.
  - POSIX `os.path.dirname` and `os.path.join`.

Inputs the code reads from widgets, dialogs, the file system or `float()` /
`int()` are parameters of the model: the typed texts, the parse results, the
save dialog's answer, the set of existing paths, and the yes/no answer.

The model follows the code where the code departs from the documented
behaviour of the tool:
- `n_points <= 0` raises nothing; the slice keeps zero points, or drops
  points from the end when `n` is negative.
- An empty grid raises nothing either.
- Ties in distance are ordered however numpy's unstable default argsort
  orders them, so the model fixes the selection only up to ties.
- The grid does not depend on the team: the form passes `team=`, but the
  map functions do not accept it (see Findings).
- The models "ICON" and "ECCC", offered by the form, have no grid in the map
  catalogue. Requesting either raises `KeyError`
  (`TeamForm.TeamOnlyModelRaises`).
- The KML export raises as soon as one chosen point belongs to a single
  model: `_get_kml_color` reads a colour name such as "green" as
  hexadecimal bytes (see Findings). It succeeds only when every chosen point
  is shared, for instance GFS at 0.5 and 0.25 degrees asked for the one
  point nearest the origin (`Scenarios.GfsOriginKmlExport`).

## Model

| member | source | states |
|---|---|---|
| Lattice.Arange | pyatmo/map_points.py:18-19 | an axis lists the ticks `start + i*step` in order, every one strictly below `stop`, and the next tick reaches `stop`: the upper bound is excluded |
| Lattice.ArangeMembership | pyatmo/map_points.py:18-19 | a value is on an axis exactly when it is a tick `start + i*step` below `stop` |
| Lattice.ArangeStrictlyIncreasing | pyatmo/map_points.py:18-19 | an axis is strictly increasing, so no coordinate repeats |
| Lattice.Product | pyatmo/map_points.py:20 | no contract of its own: the comprehension, latitude outer and longitude inner; `ProductLength`, `ProductMembership` and `ProductRowMajor` below characterise it |
| Lattice.ProductLength | pyatmo/map_points.py:20 | the point list has `|lats| * |lons|` entries |
| Lattice.ProductMembership | pyatmo/map_points.py:20 | a point is in the list exactly when its latitude is on the latitude axis and its longitude on the longitude axis |
| Lattice.ProductRowMajor | pyatmo/map_points.py:20 | the entry at `i*|lons| + j` pairs the i-th latitude with the j-th longitude (latitude outer, longitude inner) |
| Lattice.ProductDistinct | pyatmo/map_points.py:20 | distinct axes give a point list without repeats |
| Lattice.LatticePoints | pyatmo/map_points.py:18-20 | a selector's points: `|lats|*|lons|` of them, no repeats, exactly the lattice pairs |
| Selection.DistSqZeroOnlyAtQuery | pyatmo/map_points.py:26 | the squared distance is never negative and is zero only at the query itself |
| Selection.Distances | pyatmo/map_points.py:25-28 | one distance per point, in list order, the i-th being that point's squared distance to the query |
| Selection.SliceLen | pyatmo/map_points.py:29 | no contract of its own: the length Python's `[:n]` keeps, counting a negative `n` from the end; `ClosestIndices` states the slice it cuts |
| Selection.InsertSorted | pyatmo/map_points.py:29 | inserting an index into a distance-sorted index list keeps it sorted |
| Selection.InsertDistinct | pyatmo/map_points.py:29 | inserting a new index into a duplicate-free index list keeps it duplicate-free |
| Selection.Argsort | pyatmo/map_points.py:29 | `np.argsort` returns every position exactly once, ordered by non-decreasing distance |
| Selection.SortedPrefixIsNearest | pyatmo/map_points.py:29 | any prefix of a distance-sorted permutation is a nearest selection: sorted, and no left-out point is nearer than a chosen one |
| Selection.ClosestIndices | pyatmo/map_points.py:29 | `argsort(distances)[:n]` is a nearest selection of the length the slice keeps |
| Selection.SelectClosestPoints | pyatmo/map_points.py:25-30 | `min(n, |points|)` points for `n >= 0`, each a point of the list, none twice, nearest first, none farther than a point left out |
| Selection.StrictNearestIsFirst | pyatmo/map_points.py:25-30 | a point strictly nearer than all others is returned first, whatever the tie order elsewhere |
| Selection.ExactHitIsFirst | pyatmo/map_points.py:25-30 | a query that is itself a lattice point gets that point first |
| Selection.WholeListWhenNCoversIt | pyatmo/map_points.py:29-30 | asking for at least as many points as exist returns every point |
| Selection.UniqueNearestIsFirst | pyatmo/map_points.py:11-30 | a lattice node strictly nearer to the query than every other node is the first point returned |
| Selection.SelectClosest | pyatmo/map_points.py:11-30 | over a selector's lattice, the selection has the slice's length, lies on the two axes, has no repeats, is sorted by distance, and no lattice point left out is nearer |
| Grouping.Append | pyatmo/map_points.py:67 | `point_groups[p].append(m)` extends only `p`'s list by `m`, adding `p` as a key if new, at the end of the key order, and leaving all other keys alone |
| Grouping.AppendAll | pyatmo/map_points.py:66-67 | the inner loop adds every point of the selection as a key |
| Grouping.GroupSelections | pyatmo/map_points.py:64-67 | the dict's keys are each listed once, and they are exactly the points some model chose |
| Grouping.ModelsSelectingMembership | pyatmo/map_points.py:64-67 | in the reference meaning, a model is listed for a point exactly when one of its selections contains the point |
| Grouping.AppendAllEffect | pyatmo/map_points.py:66-67 | over a duplicate-free selection, the inner loop adds the model once to each chosen point and nowhere else |
| Grouping.GroupsAreModelsSelecting | pyatmo/map_points.py:64-67 | each group is exactly the list of models whose selection contains its point, in model order; an unchosen point has no group |
| Grouping.GroupOfChosenPoint | pyatmo/map_points.py:64-67 | every group of the dict is the list of models that chose its point, is never empty, and holds only the selections' models |
| Grouping.PairsLandInTheirGroup | pyatmo/map_points.py:64-67 | every (model, point) pair lands in the group of that point, and a group lists a model only if that model chose its point |
| Grouping.ModelsSelectingBothOfTwo | pyatmo/map_points.py:64-67 | a point chosen by both of two selections is grouped under both models, in order |
| Grouping.AppendAddsOne | pyatmo/map_points.py:67 | one `append` adds exactly one entry to the total size of the groups |
| Grouping.AppendAllAddsLength | pyatmo/map_points.py:66-67 | the inner loop adds as many entries as the selection has points |
| Grouping.GroupingConservesPairs | pyatmo/map_points.py:100-103 | the group lists together hold exactly as many entries as all selections together |
| MapGenerator.CatalogueIsConsistent | pyatmo/map_points.py:35-45 | every catalogue grid has a positive step, and every catalogue model has its own entry in the colour map (lines 157-170) that is not purple |
| MapGenerator.Dedup | pyatmo/map_points.py:56-59 | the keys of the `closest_points` dict: each requested model once, no others |
| MapGenerator.DedupFirstOccurrence | pyatmo/map_points.py:56-59 | the keys come in the order in which the names first occur in the request |
| MapGenerator.DedupOfDistinct | pyatmo/map_points.py:56-59 | a request naming each model once keeps its order as the dict's key order |
| MapGenerator.FirstUnknown | pyatmo/map_points.py:56-59 | the KeyError is raised by the first requested model the catalogue lacks, after all earlier ones were found |
| MapGenerator.ClosestPoints | pyatmo/map_points.py:56-59 | it fails exactly when some requested model is not in the catalogue, naming the first one; otherwise each distinct model gets its own grid's selection |
| MapGenerator.CreateGroups | pyatmo/map_points.py:56-67 | grouping fails exactly on an unknown model, with the KeyError of the first one, and otherwise yields a dict whose listed keys are distinct and are exactly its keys |
| MapGenerator.CreateGroupsPartition | pyatmo/map_points.py:64-67 | for catalogue models, the group of every point is exactly the list of requested models whose nearest points include it |
| MapGenerator.CreateGroupsConservation | pyatmo/map_points.py:94-103 | the groups hold as many entries as the selections, and each selection holds `min(n, |lattice|)` points |
| MapGenerator.GroupOfSelectedPoint | pyatmo/map_points.py:64-67 | every group of a successful request is non-empty, lists only catalogue models, and equals the models that chose its point |
| MapGenerator.GroupMarkers | pyatmo/map_points.py:72-78 | one marker per group in insertion order, carrying the group's point, models and colour; it fails exactly when some group's colour lookup raises |
| MapGenerator.GroupColor | pyatmo/map_points.py:121-124 | `_get_group_color` raises KeyError exactly for a lone model without a colour |
| MapGenerator.GroupColorMarksShared | pyatmo/map_points.py:121-124 | for a non-empty group of catalogue models the lookup never raises, the colour is purple exactly when two or more models share the point, and a lone model gets its own colour |
| MapGenerator.MarkerColors | pyatmo/map_points.py:121-124 | `_get_group_color` never raises for groups of catalogue models, gives purple exactly for two or more models, and otherwise the model's own colour |
| MapGenerator.HtmlMarkerColors | pyatmo/map_points.py:69-78 | in the HTML export a marker is purple exactly when two or more requested models chose its point, else the lone model's colour |
| Hex.FromHex | pyatmo/map_points.py:129 | `bytes.fromhex` yields byte values only, at most one per two characters of its text |
| Hex.FromHexGrammar | pyatmo/map_points.py:129 | `bytes.fromhex` succeeds exactly on text made of hexadecimal digits and ASCII whitespace with an even number of digits and whitespace only between bytes; it then yields one byte per pair of digits, each the pair's value high digit first |
| Hex.FromHexToHex | pyatmo/map_points.py:129 | reading back the digits `bytes.hex` writes gives the same bytes |
| MapGenerator.ColorValues | pyatmo/map_points.py:127-130 | the conversion succeeds only with three or four hexadecimal bytes after the first character, so with names of at least seven characters, and then gives byte values |
| MapGenerator.HexCodeColor | pyatmo/map_points.py:129 | a colour written as `#rrggbb` converts to its own red, green and blue at full opacity |
| MapGenerator.KmlColorFor | pyatmo/map_points.py:127-130 | purple `(128, 0, 128)` for any number of models but one; for one model, a KeyError if it has no colour, else the conversion of its colour |
| MapGenerator.LoneModelKmlColorRaises | pyatmo/map_points.py:127-130 | no colour of the colour map (lines 157-170) converts: "red" gives one byte (TypeError in `rgb`), every other name a ValueError |
| MapGenerator.GroupPlacemarks | pyatmo/map_points.py:108-112 | one placemark per group in insertion order with the group's models and colour; it fails exactly when some group's colour raises, with that group's error |
| MapGenerator.PlacemarkColors | pyatmo/map_points.py:108-112 | for groups of colour-map models, the placemark loop completes exactly when every group has two or more models, and then every placemark is purple |
| MapGenerator.KmlPlacemarkColors | pyatmo/map_points.py:94-112 | for catalogue models, the KML placemarks are produced exactly when every chosen point was chosen by two or more models, all purple |
| Text.Join | pyatmo/map_points.py:190 | POSIX `os.path.join`: an absolute name replaces the directory; otherwise the result is the directory, at most one added '/', then the name, with a '/' right before the name whenever the directory is non-empty |
| MapGenerator.WithExtension | pyatmo/map_points.py:188-194 | a name keeps its form when it already ends in `.ext` ignoring case, and otherwise only gains `.ext` |
| MapGenerator.FullPath | pyatmo/map_points.py:184-195 | no path exactly when neither a filename nor a directory is given; a missing filename with a directory becomes `closest_points_map.ext` in it; a given name gets the extension and is joined to the directory if there is one |
| MapGenerator.WithExtensionHasExtension | pyatmo/map_points.py:191-195 | a normalised name ends in `.ext` once lower-cased |
| MapGenerator.FullPathHasExtension | pyatmo/map_points.py:184-195 | every path produced ends in `.ext` once lower-cased, whichever branch built it |
| MapGenerator.FullPathIdempotent | pyatmo/map_points.py:191-195 | normalising a bare name twice gives the same as once |
| MapGenerator.CreateMap | pyatmo/map_points.py:47-83 | an unknown model makes the HTML export raise the KeyError of the first unknown model; a successful one holds the per-group markers in insertion order followed by the "POINT" marker at the query, and is saved at `_get_full_path(..., "html")` |
| MapGenerator.CreateMapKml | pyatmo/map_points.py:85-118 | an unknown model makes the KML export raise the KeyError of the first unknown model; a successful one holds the per-group placemarks in insertion order followed by the "OBJECTIVE" placemark at the query, and is saved at `_get_full_path(..., "kml")` |
| MapGenerator.UnknownModelRaises | pyatmo/map_points.py:56-59 | a request naming any model the catalogue lacks makes both exports raise a KeyError naming such a model |
| MapGenerator.CreateMapSucceeds | pyatmo/map_points.py:47-83 | for catalogue models, the HTML export succeeds exactly when a filename or a directory is given |
| MapGenerator.CreateMapKmlOutcome | pyatmo/map_points.py:85-118 | for catalogue models, the KML export succeeds exactly when a filename or a directory is given and every chosen point is shared by two or more models |
| Lattice.LatticeNonEmpty | pyatmo/map_points.py:18-20 | a grid with a non-empty extent on both axes has at least one node |
| MapGenerator.CatalogueGridsNonEmpty | pyatmo/map_points.py:35-45 | every catalogue grid has at least one node |
| MapGenerator.SingleModelKmlRaises | pyatmo/map_points.py:94-112 | a KML request for one catalogue model and at least one point raises |
| TeamForm.ModelsForTeam | pyatmo/kmz_generator_class.py:119-124 | SIROCCO and NEBBO get ten distinct models each; any other team gets nothing |
| TeamForm.TeamListsDifferOnlyInLast | pyatmo/kmz_generator_class.py:121-124 | the two lists share their first nine models, which are exactly the map catalogue; they differ only in ICON versus ECCC, neither of which the catalogue has |
| TeamForm.TeamOnlyModelRaises | pyatmo/map_points.py:56-59 | requesting a team's ICON or ECCC makes both exports raise the catalogue KeyError, naming a model the catalogue lacks |
| TeamForm.Assign | pyatmo/kmz_generator_class.py:106 | assigning `model_vars[m]` keeps an existing key in place or appends a new one, sets `m`'s value, and leaves every other entry alone |
| TeamForm.AssignKeepsKeysUnique | pyatmo/kmz_generator_class.py:106 | the dict never holds a model twice |
| TeamForm.AssignAll | pyatmo/kmz_generator_class.py:103-106 | after the loop every team model holds its default, no model is held twice, and other models keep their state |
| TeamForm.AssignAllFresh | pyatmo/kmz_generator_class.py:103-106 | models that have no variable yet, each named once, are appended as keys in the loop's order |
| TeamForm.AssignAllKeepsKeys | pyatmo/kmz_generator_class.py:103-106 | the loop only adds keys: the old keys still come first, in their order |
| TeamForm.UpdateModels | pyatmo/kmz_generator_class.py:90-106 | a known team resets each of its models to ticked-only-for-ECMWF-and-GFS_0.5 and leaves models outside its list untouched; an unknown team raises |
| TeamForm.UpdateModelsNeverClears | pyatmo/kmz_generator_class.py:98-106 | no variable is ever removed: the old keys are the first keys after an update |
| TeamForm.SelectedModels | pyatmo/kmz_generator_class.py:151 | only models with a variable can be selected |
| TeamForm.SelectedModelsAreTicked | pyatmo/kmz_generator_class.py:151 | a model is selected exactly when its variable is ticked, and none twice |
| TeamForm.KeepAllowed | pyatmo/kmz_generator_class.py:196 | the filter keeps, in their order, exactly the selected models that the team list contains |
| TeamForm.ValidModels | pyatmo/kmz_generator_class.py:196 | `valid_models` is an order-preserving subsequence holding exactly the selected models the team offers; it raises only for an unknown team with a non-empty selection |
| TeamForm.CoordinatesAccepted | pyatmo/kmz_generator_class.py:155-161 | no contract of its own: the per-team range check; `ValidationMatchesLabels` states that it accepts exactly the labels' ranges |
| TeamForm.ValidationMatchesLabels | pyatmo/kmz_generator_class.py:155-161 | the range check accepts exactly the inclusive ranges the team's field labels announce (lines 108-117), and checks nothing for other teams |
| Text.Strip | pyatmo/kmz_generator_class.py:143 | `str.strip()`: a slice of the text that drops only whitespace at both ends, empty exactly when the text is all whitespace, and otherwise starting and ending with a non-space |
| TeamForm.GetInputValues | pyatmo/kmz_generator_class.py:141-168 | a blank asset name after `strip()` yields all-None; otherwise the inputs pass exactly when every number parses and the coordinates pass the team's range check, and the stripped name and the ticked models are returned |
| TeamForm.InputsAcceptedWithinLabels | pyatmo/kmz_generator_class.py:155-161 | with a non-blank name and parsed numbers, the form accepts exactly the points inside the range its labels show |
| TeamForm.GenerateFile | pyatmo/kmz_generator_class.py:170-198 | the export is called exactly when the inputs are valid, the dialog path is non-empty, that path is new or its overwrite was confirmed, and the team filter does not raise; the call carries the file type, the form's coordinates and point count, the asset name, the dialog's directory, the filtered models and the team |
| Text.Dirname | pyatmo/kmz_generator_class.py:198 | POSIX `os.path.dirname`: a prefix of the path up to its last '/', dropping only slashes from that head, and ending in '/' only when it is all slashes |
| TeamForm.Dispatch | pyatmo/map_points.py:197-219 | a call carrying `team` raises TypeError; otherwise the export is saved where `_get_full_path` puts the asset name in the given directory |
| TeamForm.GenerateFileNeverExports | pyatmo/kmz_generator_class.py:198 | every valid form reaches the call, and every call `_generate_file` makes carries `team` and so raises TypeError |
| TeamForm.TargetPath | pyatmo/map_points.py:184-190 | the file written for an asset is the asset name with its extension, in the dialog's directory |
| TeamForm.OverwriteGuardChecksWrongPath | pyatmo/kmz_generator_class.py:189-198 | for every valid form with asset "A", dialog path "/d/B.html" and an existing "/d/A.html", the guard asks nothing, yet the write targets "/d/A.html" |
| TeamForm.GenerateFileSafe | pyatmo/kmz_generator_class.py:170-198 | corrected form: the call carries the file type, coordinates, point count, asset name, dialog directory and filtered models but no `team`, and it happens exactly when the inputs are valid, the dialog path is non-empty, the file actually written is new or its overwrite was confirmed, and the team filter does not raise |
| TeamForm.SafeExportWritesCheckedPath | pyatmo/kmz_generator_class.py:189-198 | with the corrected form, a successful export writes exactly the path the guard asked about |
| TeamForm.SafeExportSucceeds | pyatmo/kmz_generator_class.py:196-198 | with the corrected form, valid inputs for a known team and catalogue models reach the map module; the HTML export then succeeds, and the KML export exactly when every chosen point is shared by two or more models |
| TeamForm.InitialVars | pyatmo/kmz_generator_class.py:73-74 | the form starts with exactly the SIROCCO models as keys, in the team list's order, each at its default |
| TeamForm.LeftoverSelectionIsFiltered | pyatmo/kmz_generator_class.py:196 | a model ticked before a team switch stays selected after it, and only the `valid_models` filter drops it |
| TeamForm.IconLeftOverAfterSwitchToNebbo | pyatmo/kmz_generator_class.py:103-106 | ICON ticked under SIROCCO is still selected after switching to NEBBO and is absent from NEBBO's valid models |
| Scenarios.EcmwfAxes | pyatmo/map_points.py:36 | the ECMWF grid has 1800 latitudes and 3600 longitudes, the upper bounds excluded |
| Scenarios.MadridNearestEcmwfNode | pyatmo/map_points.py:22-30 | for ECMWF and the query (40.41, -3.70), the first point returned is (40.4, -3.7) |
| Scenarios.OriginIsNode | pyatmo/map_points.py:18-20 | the origin is a node of every global grid whose step divides 90 |
| Scenarios.NodeQueryFirst | pyatmo/map_points.py:25-30 | a query on a grid node gets that node first |
| Scenarios.ClosestPointsOfPair | pyatmo/map_points.py:56-59 | two different catalogue models yield their two selections, in request order |
| Scenarios.EcmwfOtherPointFarther | pyatmo/map_points.py:22-26 | every ECMWF node other than (40.4, -3.7) is farther from the query (40.41, -3.70) |
| Scenarios.EcmwfMadridOffset | pyatmo/map_points.py:18-20 | (40.4, -3.7) is the ECMWF lattice entry at row 1304, column 1763 in row-major order |
| Scenarios.GlobalPairSelectOriginFirst | pyatmo/map_points.py:56-59 | two catalogue models on global grids whose steps divide 90 both return the origin first for a query at the origin |
| Scenarios.GfsSelectOriginFirst | pyatmo/map_points.py:37-38 | GFS at 0.5 and at 0.25 degrees both return the origin first for a query at the origin |
| Scenarios.PointChosenByBoth | pyatmo/map_points.py:64-78 | a point both models of a two-model request choose is one group with both names, coloured purple in both exports |
| Scenarios.OriginSharedByGfsGrids | pyatmo/map_points.py:56-78 | the origin is one group listing GFS_0.5 and GFS_0.25, purple in both exports |
| Scenarios.OnlyNearestOfNode | pyatmo/map_points.py:18-30 | on a global grid whose step divides 90, the single nearest node to the origin is the origin alone |
| Scenarios.SameSelectionKmlExport | pyatmo/map_points.py:94-118 | two catalogue models that select the same points give a KML export that succeeds |
| Scenarios.GfsOriginKmlExport | pyatmo/map_points.py:94-118 | GFS at 0.5 and 0.25 degrees, asked for the one point nearest the origin, give a KML export that succeeds |
| Scenarios.PointCountEdges | pyatmo/map_points.py:29-30 | asking for zero points returns none without error; asking for more points than a grid has returns all of them |

## Left out

- Rendering and saving are not modelled: folium maps, popups, icons, `m.save`, simplekml placemarks and `kml.save` (pyatmo/map_points.py:61, 74-83, 105-118). These are file output through external libraries. Markers and placemarks are modelled only as point, models and colour.
- The popup and placemark text formatted to two decimals is not modelled. It is presentation only.
- `_add_markers`, `_prepare_kml_data` and `_add_kml_placemarks` are not modelled. Nothing calls them.
- simplekml is not part of this model. Its `Color.rgb(r, g, b, a=255)` signature is taken as given: three or four values are accepted, any other count raises TypeError. The colour string it returns is not modelled; a placemark keeps the values passed to it.
- Selection.SelectClosestPoints: the order among points at equal distance is left open. numpy's default argsort is not stable, so no particular tie order is promised.
- Coordinates are exact reals. Floating-point rounding of `np.arange` and of the distance, `sqrt`, NaN and infinities are not modelled. `sqrt` is replaced by the squared distance, which orders points the same way.
- What the exact reals change: numpy fills a float range as `start + i * ((start + step) - start)`, so on an axis with step 0.1 or 0.2 the ticks drift from their decimal values (on the 0.1-degree latitude axis from -90, the tick at index 900 is about -5e-12, not 0.0). Grouping compares points exactly, so nodes of grids with different steps that coincide in the model, such as the origin of ECMWF and GFS_0.5, almost never coincide in the program. Grids with the same step share all their nodes in both, and so do the 0.25- and 0.5-degree grids, whose steps are exact binary fractions. `Scenarios.OriginIsNode`, `Scenarios.GlobalPairSelectOriginFirst`, `Scenarios.EcmwfMadridOffset`, `Scenarios.MadridNearestEcmwfNode`, `Scenarios.EcmwfOtherPointFarther` (in float64 the latitude tick at row 1304 is about 40.39999999999259, not 40.4) and every shared point (purple marker, successful KML export) of a request mixing steps 0.1 or 0.2 with another step are exact-real facts; the GFS scenarios also hold in floating point.
- Lattice.Arange requires a positive step. Every grid of the catalogue has one, and a zero or negative step never reaches the selector.
- `float()` and `int()` parsing of the form fields is a parameter. The parsed value, or its failure, is passed in, so texts such as "nan" or "inf" are not modelled.
- Text.Lower folds ASCII letters only. Python's `str.lower` on other scripts is not modelled.
- `os.path.join` and `os.path.dirname` are POSIX only.
- The file system is a set of existing path strings, with no normalisation or links. `os.path.expanduser` only sets the dialog's start directory and is not modelled.
- Tk widgets, layout, styles, message boxes and the logger are not modelled: `pyatmo/logger.py` and everything in `pyatmo/kmz_generator_class.py` other than the decision logic above. The field labels appear only as the ranges they announce.
- The default arguments of `create_map` and `create_map_kml` are not modelled. The model always passes every argument explicitly, as the form does.
- `pyatmo/kmz_generator.py`, `kmz_generator.py` and `setup.py` are not part of this model. The two generators repeat logic already covered, and `setup.py` is packaging.

## Findings

| source | as written | input that shows it | evidently intended | confidence | as-written member | corrected member |
|---|---|---|---|---|---|---|
| pyatmo/kmz_generator_class.py:198 | `create_function(..., models=valid_models, team=team)`, but `create_map` and `create_map_kml` (pyatmo/map_points.py:197-219) accept no `team` parameter, so the call raises TypeError | any valid form, e.g. asset "A", (0, 0), SIROCCO with ECMWF ticked, dialog path "/d/A.html" that does not exist | call the export without `team`, so that a valid request reaches the map module; the HTML file is then written, the KML file only when every chosen point is shared by two or more models (see the colour row below) | high (not executed) | TeamForm.GenerateFileNeverExports | TeamForm.GenerateFileSafe |
| pyatmo/kmz_generator_class.py:189-198 | the existence check asks about the dialog's `file_path`, but the export writes the asset name with its extension in that directory | asset "A", dialog path "/d/B.html", existing "/d/A.html", user would answer no: no question is asked, and "/d/A.html" is the target | check, and ask about, the path that is actually written | medium (not executed) | TeamForm.OverwriteGuardChecksWrongPath | TeamForm.GenerateFileSafe |
| pyatmo/map_points.py:127-130 | `bytes.fromhex(color_map[m][1:])` applied to colour names: "red" leaves the one byte 0xed, too few for `Color.rgb` (TypeError), and every other name holds a character that is not hexadecimal (ValueError) | models ["ECMWF"], n = 1, any query and file name: the one placemark's colour raises and no KML file is written | a colour table of `#rrggbb` codes, whose text after `#` reads back as the model's red, green and blue | medium (not executed) | MapGenerator.SingleModelKmlRaises | MapGenerator.HexCodeColor |

=== FILE: basics.dfy ===
/** Small shared vocabulary: optional values, results, and facts about
    duplicate-free sequences that several modules rely on. */
module Basics {

  /** Python's `None` versus a present value. */
  datatype Option<+T> = None | Some(value: T)

  /** A computation that either produces a value or raises an error. */
  datatype Result<+T, +E> = Ok(value: T) | Err(error: E)

  /** No element occurs twice. */
  predicate Distinct<T(==)>(s: seq<T>) {
    forall i, j :: 0 <= i < j < |s| ==> s[i] != s[j]
  }

  /** Gluing two duplicate-free sequences with no common element keeps them duplicate-free. */
  lemma DistinctConcat<T>(a: seq<T>, b: seq<T>)
    requires Distinct(a) && Distinct(b)
    requires forall x :: x in a ==> x !in b
    ensures Distinct(a + b)
  {
    forall i, j | 0 <= i < j < |a + b|
      ensures (a + b)[i] != (a + b)[j]
    {
      if j < |a| {
      } else if i >= |a| {
        assert (a + b)[i] == b[i - |a|] && (a + b)[j] == b[j - |a|];
      } else {
        assert (a + b)[i] in a && (a + b)[j] in b;
      }
    }
  }

  /** Putting a fresh element in front keeps a sequence duplicate-free. */
  lemma DistinctCons<T>(x: T, t: seq<T>)
    ensures x !in t && Distinct(t) ==> Distinct([x] + t)
  {
    if x !in t && Distinct(t) {
      forall i, j | 0 <= i < j < |[x] + t|
        ensures ([x] + t)[i] != ([x] + t)[j]
      {
        if i == 0 {
          assert ([x] + t)[j] == t[j - 1];
        } else {
          assert ([x] + t)[i] == t[i - 1] && ([x] + t)[j] == t[j - 1];
        }
      }
    }
  }

  /** The position of the first occurrence of `x` in `s`. */
  function FirstIndex<T(==)>(s: seq<T>, x: T): (i: nat)
    requires x in s
    ensures i < |s| && s[i] == x && x !in s[..i]
  {
    if s[0] == x then 0
    else
      var j := FirstIndex(s[1..], x);
      assert s[..j + 1] == [s[0]] + s[1..][..j];
      j + 1
  }

  /** A position holding `x` with no earlier `x` is the first occurrence. */
  lemma FirstIndexUnique<T>(s: seq<T>, x: T, k: nat)
    requires k < |s| && s[k] == x && x !in s[..k]
    ensures FirstIndex(s, x) == k
  {
  }

  /** Extending a sequence does not move the first occurrence of an element
      it already holds. */
  lemma FirstIndexOfPrefix<T>(s: seq<T>, t: seq<T>, x: T)
    requires x in s
    ensures FirstIndex(s + t, x) == FirstIndex(s, x)
  {
    var i := FirstIndex(s, x);
    assert (s + t)[..i] == s[..i];
    FirstIndexUnique(s + t, x, i);
  }

  /** Python's `min` on two integers. */
  function Min(a: int, b: int): int {
    if a <= b then a else b
  }

  /** Python's `max` on two integers. */
  function Max(a: int, b: int): int {
    if a <= b then b else a
  }
}

=== FILE: grouping.dfy ===
/** The cross-model grouping loop of `MapGenerator.create_map` and
    `create_map_kml` (pyatmo/map_points.py): for each model in request order,
    and each point of its selection in order, the model is appended to that
    point's list in a `defaultdict(list)`, so a point seen for the first time
    becomes a new key.

    A Python dict remembers insertion order, so the groups are modelled as the
    keys in first-insertion order together with the map from each key to its
    list of models. */
module Grouping {
  import opened Basics
  import opened Lattice

  /** A weather-model name such as "ECMWF". */
  type ModelName = string

  /** One entry of `closest_points`: a model and the points chosen for it. */
  datatype ModelPoints = ModelPoints(model: ModelName, points: seq<Point>)

  /** `point_groups`: the points in the order they were first appended, and
      the models appended under each. */
  datatype PointGroups = PointGroups(order: seq<Point>, members: map<Point, seq<ModelName>>)

  /** The shape of an insertion-ordered dict: each key listed once, and the
      listed keys are exactly the keys of the map. */
  predicate WellFormed(g: PointGroups) {
    && Distinct(g.order)
    && g.members.Keys == set p | p in g.order
  }

  /** `point_groups[p]` read through the default factory: the empty list for a
      missing key. */
  function ModelsAt(g: PointGroups, p: Point): seq<ModelName> {
    if p in g.members then g.members[p] else []
  }

  /** `point_groups[p].append(m)`. */
  function Append(g: PointGroups, m: ModelName, p: Point): (r: PointGroups)
    requires WellFormed(g)
    ensures WellFormed(r)
    ensures r.members.Keys == g.members.Keys + {p}
    ensures r.order == if p in g.members then g.order else g.order + [p]
    ensures ModelsAt(r, p) == ModelsAt(g, p) + [m]
    ensures forall q :: q != p ==> ModelsAt(r, q) == ModelsAt(g, q)
  {
    if p in g.members then
      PointGroups(g.order, g.members[p := g.members[p] + [m]])
    else
      assert p !in g.order;
      DistinctConcat(g.order, [p]);
      PointGroups(g.order + [p], g.members[p := [m]])
  }

  /** The inner loop: append `m` under every point of `pts`, in order. */
  function AppendAll(g: PointGroups, m: ModelName, pts: seq<Point>): (r: PointGroups)
    requires WellFormed(g)
    ensures WellFormed(r)
    ensures r.members.Keys == g.members.Keys + set p | p in pts
  {
    if pts == [] then g
    else
      var init := pts[..|pts| - 1];
      assert (set p | p in pts) == (set p | p in init) + {pts[|pts| - 1]};
      Append(AppendAll(g, m, init), m, pts[|pts| - 1])
  }

  /** Every point chosen for any model. */
  function AllPoints(sels: seq<ModelPoints>): set<Point> {
    set k, p | 0 <= k < |sels| && p in sels[k].points :: p
  }

  /** The whole loop, over the selections in order, from an empty dict. */
  function GroupSelections(sels: seq<ModelPoints>): (g: PointGroups)
    ensures WellFormed(g)
    ensures g.members.Keys == AllPoints(sels)
  {
    if sels == [] then PointGroups([], map[])
    else
      var init := sels[..|sels| - 1];
      var last := sels[|sels| - 1];
      assert AllPoints(sels) == AllPoints(init) + set p | p in last.points by {
        forall p | p in AllPoints(sels)
          ensures p in AllPoints(init) + set p | p in last.points
        {
          var k :| 0 <= k < |sels| && p in sels[k].points;
          if k < |init| {
            assert sels[k] == init[k];
          }
        }
        forall p | p in AllPoints(init)
          ensures p in AllPoints(sels)
        {
          var k :| 0 <= k < |init| && p in init[k].points;
          assert sels[k] == init[k];
        }
      }
      AppendAll(GroupSelections(init), last.model, last.points)
  }

  /** Reference meaning of a group: the models, in selection order, whose
      selection contains `p`. */
  function ModelsSelecting(sels: seq<ModelPoints>, p: Point): seq<ModelName> {
    if sels == [] then []
    else
      var last := sels[|sels| - 1];
      ModelsSelecting(sels[..|sels| - 1], p) + (if p in last.points then [last.model] else [])
  }

  /** A model is listed for `p` exactly when some selection of that model
      contains `p`. */
  lemma {:induction false} ModelsSelectingMembership(sels: seq<ModelPoints>, p: Point, m: ModelName)
    ensures m in ModelsSelecting(sels, p) <==>
              exists k :: 0 <= k < |sels| && sels[k].model == m && p in sels[k].points
  {
    if sels != [] {
      var init := sels[..|sels| - 1];
      var last := sels[|sels| - 1];
      ModelsSelectingMembership(init, p, m);
      if exists k :: 0 <= k < |sels| && sels[k].model == m && p in sels[k].points {
        var k :| 0 <= k < |sels| && sels[k].model == m && p in sels[k].points;
        if k < |init| {
          assert init[k] == sels[k];
        }
      }
      if exists k :: 0 <= k < |init| && init[k].model == m && p in init[k].points {
        var k :| 0 <= k < |init| && init[k].model == m && p in init[k].points;
        assert sels[k] == init[k];
      }
    }
  }

  /** The inner loop over duplicate-free points adds `m` once under each of
      them and leaves every other point alone. */
  lemma {:induction false} AppendAllEffect(g: PointGroups, m: ModelName, pts: seq<Point>, q: Point)
    requires WellFormed(g) && Distinct(pts)
    ensures ModelsAt(AppendAll(g, m, pts), q) == ModelsAt(g, q) + (if q in pts then [m] else [])
  {
    if pts != [] {
      var init := pts[..|pts| - 1];
      var last := pts[|pts| - 1];
      assert Distinct(init);
      assert last !in init;
      AppendAllEffect(g, m, init, q);
      assert q in pts <==> q in init || q == last;
    }
  }

  /** Grouping is a partition of the (model, point) pairs: when no model's
      selection repeats a point, the group of every point lists exactly the
      models that chose it, in selection order, and a point nobody chose has
      no group. */
  lemma {:induction false} GroupsAreModelsSelecting(sels: seq<ModelPoints>, p: Point)
    requires forall k :: 0 <= k < |sels| ==> Distinct(sels[k].points)
    ensures ModelsAt(GroupSelections(sels), p) == ModelsSelecting(sels, p)
  {
    if sels != [] {
      var init := sels[..|sels| - 1];
      var last := sels[|sels| - 1];
      assert forall k :: 0 <= k < |init| ==> init[k] == sels[k];
      GroupsAreModelsSelecting(init, p);
      AppendAllEffect(GroupSelections(init), last.model, last.points, p);
    }
  }

  /** Each (model, point) pair lands in the group keyed by that point, and a
      model appears in a group only if it chose that group's point. */
  lemma PairsLandInTheirGroup(sels: seq<ModelPoints>)
    requires forall k :: 0 <= k < |sels| ==> Distinct(sels[k].points)
    ensures var g := GroupSelections(sels);
      forall k, p :: 0 <= k < |sels| && p in sels[k].points ==>
        p in g.members && sels[k].model in g.members[p]
    ensures var g := GroupSelections(sels);
      forall p, m :: p in g.members && m in g.members[p] ==>
        exists k :: 0 <= k < |sels| && sels[k].model == m && p in sels[k].points
  {
    var g := GroupSelections(sels);
    forall k, p | 0 <= k < |sels| && p in sels[k].points
      ensures p in g.members && sels[k].model in g.members[p]
    {
      assert p in AllPoints(sels);
      GroupsAreModelsSelecting(sels, p);
      ModelsSelectingMembership(sels, p, sels[k].model);
    }
    forall p, m | p in g.members && m in g.members[p]
      ensures exists k :: 0 <= k < |sels| && sels[k].model == m && p in sels[k].points
    {
      GroupsAreModelsSelecting(sels, p);
      ModelsSelectingMembership(sels, p, m);
    }
  }

  /** A group of the dict is the list of models that chose its point: never
      empty, and made only of the selections' models. */
  lemma GroupOfChosenPoint(sels: seq<ModelPoints>, p: Point, known: set<ModelName>)
    requires forall k :: 0 <= k < |sels| ==> Distinct(sels[k].points) && sels[k].model in known
    requires p in GroupSelections(sels).members
    ensures var g := GroupSelections(sels);
      && g.members[p] == ModelsSelecting(sels, p)
      && |g.members[p]| >= 1
      && forall m :: m in g.members[p] ==> m in known
  {
    var g := GroupSelections(sels);
    GroupsAreModelsSelecting(sels, p);
    PairsLandInTheirGroup(sels);
    forall m | m in g.members[p]
      ensures m in known
    {
      ModelsSelectingMembership(sels, p, m);
    }
    assert p in AllPoints(sels);
    var k :| 0 <= k < |sels| && p in sels[k].points;
    assert sels[k].model in g.members[p];
  }

  /** A point both of two selections contain is grouped under both models,
      in selection order. */
  lemma ModelsSelectingBothOfTwo(sels: seq<ModelPoints>, p: Point)
    requires |sels| == 2 && p in sels[0].points && p in sels[1].points
    ensures ModelsSelecting(sels, p) == [sels[0].model, sels[1].model]
  {
    assert sels[..1][..0] == [];
    assert ModelsSelecting(sels[..1], p) == ModelsSelecting([], p) + [sels[0].model];
  }

  /** Sum of the model-list lengths of the listed keys. */
  function SizeSum(order: seq<Point>, members: map<Point, seq<ModelName>>): nat
    requires forall p :: p in order ==> p in members
  {
    if order == [] then 0 else |members[order[0]]| + SizeSum(order[1..], members)
  }

  /** The total length of all the group lists of a dict. */
  function GroupSizeTotal(g: PointGroups): nat
    requires WellFormed(g)
  {
    SizeSum(g.order, g.members)
  }

  /** Sum of `len(points)` over all selections. */
  function SelectedTotal(sels: seq<ModelPoints>): nat {
    if sels == [] then 0 else SelectedTotal(sels[..|sels| - 1]) + |sels[|sels| - 1].points|
  }

  lemma {:induction false} SizeSumIgnoresUnlisted(order: seq<Point>, members: map<Point, seq<ModelName>>, p: Point, v: seq<ModelName>)
    requires forall q :: q in order ==> q in members
    requires p !in order
    ensures SizeSum(order, members[p := v]) == SizeSum(order, members)
  {
    if order != [] {
      SizeSumIgnoresUnlisted(order[1..], members, p, v);
    }
  }

  lemma {:induction false} SizeSumUpdate(order: seq<Point>, members: map<Point, seq<ModelName>>, p: Point, v: seq<ModelName>)
    requires forall q :: q in order ==> q in members
    requires Distinct(order) && p in order
    ensures SizeSum(order, members[p := v]) + |members[p]| == SizeSum(order, members) + |v|
  {
    if order[0] == p {
      assert p !in order[1..];
      SizeSumIgnoresUnlisted(order[1..], members, p, v);
    } else {
      SizeSumUpdate(order[1..], members, p, v);
    }
  }

  lemma {:induction false} SizeSumSnoc(order: seq<Point>, members: map<Point, seq<ModelName>>, p: Point)
    requires forall q :: q in order ==> q in members
    requires p in members
    ensures SizeSum(order + [p], members) == SizeSum(order, members) + |members[p]|
  {
    if order == [] {
      assert [p][1..] == [];
    } else {
      assert (order + [p])[1..] == order[1..] + [p];
      SizeSumSnoc(order[1..], members, p);
    }
  }

  /** One `append` adds exactly one model name to the total. */
  lemma AppendAddsOne(g: PointGroups, m: ModelName, p: Point)
    requires WellFormed(g)
    ensures GroupSizeTotal(Append(g, m, p)) == GroupSizeTotal(g) + 1
  {
    if p in g.members {
      SizeSumUpdate(g.order, g.members, p, g.members[p] + [m]);
    } else {
      SizeSumIgnoresUnlisted(g.order, g.members, p, [m]);
      SizeSumSnoc(g.order, g.members[p := [m]], p);
    }
  }

  lemma {:induction false} AppendAllAddsLength(g: PointGroups, m: ModelName, pts: seq<Point>)
    requires WellFormed(g)
    ensures GroupSizeTotal(AppendAll(g, m, pts)) == GroupSizeTotal(g) + |pts|
  {
    if pts != [] {
      AppendAllAddsLength(g, m, pts[..|pts| - 1]);
      AppendAddsOne(AppendAll(g, m, pts[..|pts| - 1]), m, pts[|pts| - 1]);
    }
  }

  /** Conservation: the group model lists together hold exactly as many
      entries as all the selections together, so no (model, point) pair is
      dropped or duplicated. This holds even if a selection repeated a point. */
  lemma {:induction false} GroupingConservesPairs(sels: seq<ModelPoints>)
    ensures GroupSizeTotal(GroupSelections(sels)) == SelectedTotal(sels)
  {
    if sels != [] {
      var init := sels[..|sels| - 1];
      var last := sels[|sels| - 1];
      GroupingConservesPairs(init);
      AppendAllAddsLength(GroupSelections(init), last.model, last.points);
    }
  }
}

=== FILE: hex.dfy ===
/** Python's `bytes.fromhex` on a `str`, and `bytes.hex` as its inverse on
    byte values. Bytes are naturals below 256, as Python yields them when a
    `bytes` object is iterated. */
module Hex {
  import opened Basics

  /** The characters `bytes.fromhex` skips before a byte: ASCII space, tab,
      line feed, vertical tab, form feed and carriage return. */
  predicate IsAsciiSpace(c: char) {
    c == ' ' || '\t' <= c <= '\r'
  }

  predicate IsHexDigit(c: char) {
    '0' <= c <= '9' || 'a' <= c <= 'f' || 'A' <= c <= 'F'
  }

  /** The value of one hexadecimal digit, upper or lower case. */
  function DigitValue(c: char): (v: nat)
    requires IsHexDigit(c)
    ensures v < 16
  {
    if '0' <= c <= '9' then c as int - '0' as int
    else if 'a' <= c <= 'f' then c as int - 'a' as int + 10
    else c as int - 'A' as int + 10
  }

  predicate IsByte(b: nat) {
    b < 256
  }

  predicate AllBytes(bs: seq<nat>) {
    forall k :: 0 <= k < |bs| ==> IsByte(bs[k])
  }

  /** `bytes.fromhex(s)`: whitespace may precede each byte, and each byte is
      two hexadecimal digits written together; anything else, including an
      odd digit at the end, raises ValueError (`None` here). */
  function FromHex(s: string): (r: Option<seq<nat>>)
    ensures r.Some? ==> AllBytes(r.value)
    ensures r.Some? ==> |r.value| * 2 <= |s|
    decreases |s|
  {
    if s == [] then Some([])
    else if IsAsciiSpace(s[0]) then FromHex(s[1..])
    else if |s| >= 2 && IsHexDigit(s[0]) && IsHexDigit(s[1]) then
      match FromHex(s[2..])
      case None => None
      case Some(rest) => Some([DigitValue(s[0]) * 16 + DigitValue(s[1])] + rest)
    else None
  }

  /** The lower-case digit for a value below 16. */
  function DigitChar(v: nat): (c: char)
    requires v < 16
    ensures IsHexDigit(c) && !IsAsciiSpace(c) && DigitValue(c) == v
  {
    if v < 10 then ('0' as int + v) as char else ('a' as int + v - 10) as char
  }

  /** `bytes.hex()`: two lower-case digits per byte, high digit first. */
  function ToHex(bs: seq<nat>): (s: string)
    requires AllBytes(bs)
    ensures |s| == 2 * |bs|
    ensures forall k :: 0 <= k < |s| ==> IsHexDigit(s[k])
  {
    if bs == [] then []
    else [DigitChar(bs[0] / 16), DigitChar(bs[0] % 16)] + ToHex(bs[1..])
  }

  /** Reading back what `bytes.hex()` wrote gives the same bytes. */
  lemma {:induction false} FromHexToHex(bs: seq<nat>)
    requires AllBytes(bs)
    ensures FromHex(ToHex(bs)) == Some(bs)
  {
    if bs != [] {
      var s := ToHex(bs);
      assert s[2..] == ToHex(bs[1..]);
      FromHexToHex(bs[1..]);
      assert DigitValue(s[0]) * 16 + DigitValue(s[1]) == bs[0];
      assert [bs[0]] + bs[1..] == bs;
    }
  }

  /** The hexadecimal digits of `s`, in order, with everything else dropped. */
  function Digits(s: string): (d: string)
    ensures |d| <= |s|
  {
    if s == [] then [] else (if IsHexDigit(s[0]) then [s[0]] else []) + Digits(s[1..])
  }

  /** The text `bytes.fromhex` accepts, stated without reading it pair by
      pair: only hexadecimal digits and ASCII whitespace, an even number of
      digits, and whitespace only where an even number of digits precede it,
      that is, between two bytes and never inside one. */
  predicate HexText(s: string) {
    && (forall k :: 0 <= k < |s| ==> IsHexDigit(s[k]) || IsAsciiSpace(s[k]))
    && |Digits(s)| % 2 == 0
    && (forall k :: 0 <= k < |s| && IsAsciiSpace(s[k]) ==> |Digits(s[..k])| % 2 == 0)
  }

  /** The byte value of the j-th pair of digits. */
  function PairValue(d: string, j: nat): nat
    requires 2 * j + 1 < |d| && IsHexDigit(d[2 * j]) && IsHexDigit(d[2 * j + 1])
  {
    DigitValue(d[2 * j]) * 16 + DigitValue(d[2 * j + 1])
  }

  predicate AllHexDigits(d: string) {
    forall k :: 0 <= k < |d| ==> IsHexDigit(d[k])
  }

  lemma DigitsAreHex(s: string)
    ensures AllHexDigits(Digits(s))
  {
  }

  /** Dropping a leading whitespace character changes neither the digits nor
      the acceptance. */
  lemma {:induction false} HexTextDropSpace(s: string)
    requires s != [] && IsAsciiSpace(s[0])
    ensures Digits(s) == Digits(s[1..])
    ensures HexText(s) <==> HexText(s[1..])
  {
    var t := s[1..];
    assert !IsHexDigit(s[0]);
    forall k | 1 <= k <= |s|
      ensures Digits(s[..k]) == Digits(t[..k - 1])
    {
      assert s[..k][1..] == t[..k - 1];
    }
    if HexText(t) {
      forall k | 0 <= k < |s| && IsAsciiSpace(s[k])
        ensures |Digits(s[..k])| % 2 == 0
      {
        if k > 0 {
          assert IsAsciiSpace(t[k - 1]);
        }
      }
    }
    if HexText(s) {
      forall k | 0 <= k < |t| && IsAsciiSpace(t[k])
        ensures |Digits(t[..k])| % 2 == 0
      {
        assert IsAsciiSpace(s[k + 1]);
      }
      forall k | 0 <= k < |t|
        ensures IsHexDigit(t[k]) || IsAsciiSpace(t[k])
      {
        assert t[k] == s[k + 1];
      }
    }
  }

  /** The digits of a text that starts with a pair, and of each of its
      prefixes past that pair, are the pair followed by the digits of the
      rest. */
  lemma {:induction false} DigitsDropPair(s: string)
    requires |s| >= 2 && IsHexDigit(s[0]) && IsHexDigit(s[1])
    ensures Digits(s) == [s[0], s[1]] + Digits(s[2..])
    ensures forall k :: 2 <= k <= |s| ==> Digits(s[..k]) == [s[0], s[1]] + Digits(s[2..][..k - 2])
  {
    var t := s[2..];
    assert s[1..][1..] == t;
    forall k | 2 <= k <= |s|
      ensures Digits(s[..k]) == [s[0], s[1]] + Digits(t[..k - 2])
    {
      assert s[..k][1..][1..] == t[..k - 2];
    }
  }

  /** Dropping a leading pair of digits removes those two digits and keeps
      the acceptance. */
  lemma {:induction false} HexTextDropPair(s: string)
    requires |s| >= 2 && IsHexDigit(s[0]) && IsHexDigit(s[1])
    ensures Digits(s) == [s[0], s[1]] + Digits(s[2..])
    ensures HexText(s) <==> HexText(s[2..])
  {
    DigitsDropPair(s);
    if HexText(s[2..]) {
      HexTextAddPair(s);
    }
    if HexText(s) {
      HexTextRestOfPair(s);
    }
  }

  /** Accepted text stays accepted with a pair of digits put in front. */
  lemma {:induction false} HexTextAddPair(s: string)
    requires |s| >= 2 && IsHexDigit(s[0]) && IsHexDigit(s[1])
    requires forall k :: 2 <= k <= |s| ==> Digits(s[..k]) == [s[0], s[1]] + Digits(s[2..][..k - 2])
    requires Digits(s) == [s[0], s[1]] + Digits(s[2..])
    requires HexText(s[2..])
    ensures HexText(s)
  {
    var t := s[2..];
    forall k | 0 <= k < |s| && IsAsciiSpace(s[k])
      ensures |Digits(s[..k])| % 2 == 0
    {
      assert k >= 2;
      assert IsAsciiSpace(t[k - 2]);
    }
    forall k | 0 <= k < |s|
      ensures IsHexDigit(s[k]) || IsAsciiSpace(s[k])
    {
      if k >= 2 {
        assert s[k] == t[k - 2];
      }
    }
  }

  /** What follows the first pair of an accepted text is accepted. */
  lemma {:induction false} HexTextRestOfPair(s: string)
    requires |s| >= 2 && IsHexDigit(s[0]) && IsHexDigit(s[1])
    requires forall k :: 2 <= k <= |s| ==> Digits(s[..k]) == [s[0], s[1]] + Digits(s[2..][..k - 2])
    requires Digits(s) == [s[0], s[1]] + Digits(s[2..])
    requires HexText(s)
    ensures HexText(s[2..])
  {
    var t := s[2..];
    forall k | 0 <= k < |t| && IsAsciiSpace(t[k])
      ensures |Digits(t[..k])| % 2 == 0
    {
      assert IsAsciiSpace(s[k + 2]);
      assert Digits(s[..k + 2]) == [s[0], s[1]] + Digits(t[..k]);
    }
    forall k | 0 <= k < |t|
      ensures IsHexDigit(t[k]) || IsAsciiSpace(t[k])
    {
      assert t[k] == s[k + 2];
    }
  }

  /** A text that starts neither with whitespace nor with two digits is
      rejected: a stray character, a lone last digit, or whitespace after
      the first digit of a byte. */
  lemma HexTextBadStart(s: string)
    requires s != [] && !IsAsciiSpace(s[0])
    requires !(|s| >= 2 && IsHexDigit(s[0]) && IsHexDigit(s[1]))
    ensures !HexText(s)
  {
    if IsHexDigit(s[0]) {
      if |s| == 1 {
        assert Digits(s) == [s[0]];
      } else if IsAsciiSpace(s[1]) {
        assert s[..1] == [s[0]];
        assert Digits(s[..1]) == [s[0]];
      }
    }
  }

  /** `bytes.fromhex` against the grammar: it succeeds exactly on the
      accepted texts, and then yields one byte per pair of digits, each the
      pair's value read high digit first. */
  lemma FromHexGrammar(s: string)
    ensures FromHex(s).Some? <==> HexText(s)
    ensures FromHex(s).Some? ==>
      var d := Digits(s);
      && AllHexDigits(d)
      && |FromHex(s).value| * 2 == |d|
      && forall j :: 0 <= j < |FromHex(s).value| ==> FromHex(s).value[j] == PairValue(d, j)
  {
    FromHexAccepts(s);
    FromHexValues(s);
  }

  /** The acceptance half of `FromHexGrammar`. */
  lemma {:induction false} FromHexAccepts(s: string)
    ensures FromHex(s).Some? <==> HexText(s)
    decreases |s|
  {
    if s == [] {
    } else if IsAsciiSpace(s[0]) {
      HexTextDropSpace(s);
      FromHexAccepts(s[1..]);
    } else if |s| >= 2 && IsHexDigit(s[0]) && IsHexDigit(s[1]) {
      HexTextDropPair(s);
      FromHexAccepts(s[2..]);
    } else {
      HexTextBadStart(s);
    }
  }

  /** The byte-value half of `FromHexGrammar`. */
  lemma {:induction false} FromHexValues(s: string)
    ensures FromHex(s).Some? ==>
      var d := Digits(s);
      && AllHexDigits(d)
      && |FromHex(s).value| * 2 == |d|
      && forall j :: 0 <= j < |FromHex(s).value| ==> FromHex(s).value[j] == PairValue(d, j)
    decreases |s|
  {
    DigitsAreHex(s);
    if s == [] {
    } else if IsAsciiSpace(s[0]) {
      HexTextDropSpace(s);
      FromHexValues(s[1..]);
    } else if |s| >= 2 && IsHexDigit(s[0]) && IsHexDigit(s[1]) && FromHex(s).Some? {
      DigitsDropPair(s);
      FromHexValues(s[2..]);
      var rest := FromHex(s[2..]).value;
      var d := Digits(s);
      var d2 := Digits(s[2..]);
      DigitsAreHex(s[2..]);
      forall j | 0 <= j < |FromHex(s).value|
        ensures FromHex(s).value[j] == PairValue(d, j)
      {
        if j > 0 {
          assert d[2 * j] == d2[2 * (j - 1)] && d[2 * j + 1] == d2[2 * (j - 1) + 1];
          assert FromHex(s).value[j] == rest[j - 1];
        }
      }
    }
  }
}

=== FILE: lattice.dfy ===
/** The regular latitude/longitude lattice built by `GridPointSelector`
    (pyatmo/map_points.py): each axis is a half-open `np.arange`, and the
    points are their Cartesian product in row-major order, latitude outer and
    longitude inner. Coordinates are exact reals, so the rounding of
    floating-point `arange` is abstracted away. */
module Lattice {
  import opened Basics

  /** A grid node or a query coordinate, in degrees. */
  datatype Point = Point(lat: real, lon: real)

  /** The i-th value of an arithmetic progression. */
  function Tick(start: real, step: real, i: nat): real {
    start + i as real * step
  }

  /** Ceiling of a real, written with the built-in floor. */
  function Ceil(x: real): int {
    -((-x).Floor)
  }

  lemma CeilBounds(x: real)
    ensures Ceil(x) as real - 1.0 < x <= Ceil(x) as real
  {
  }

  lemma ScalePreservesLess(a: real, b: real, step: real)
    requires step > 0.0 && a < b
    ensures a * step < b * step
  {
    assert b * step - a * step == (b - a) * step;
  }

  lemma ScalePreservesAtMost(a: real, b: real, step: real)
    requires step > 0.0 && a <= b
    ensures a * step <= b * step
  {
    assert b * step - a * step == (b - a) * step;
  }

  /** The length numpy gives `np.arange(start, stop, step)` for a positive step:
      the number of steps needed to reach `stop`, rounded up. */
  function ArangeLen(start: real, stop: real, step: real): nat
    requires step > 0.0
  {
    if stop <= start then 0
    else
      CeilBounds((stop - start) / step);
      Ceil((stop - start) / step)
  }

  /** `np.arange(start, stop, step)`: every tick from `start` strictly below
      `stop`. The next tick after the last one is at or beyond `stop`, which
      is what makes the range half-open. */
  function Arange(start: real, stop: real, step: real): (r: seq<real>)
    requires step > 0.0
    ensures forall i :: 0 <= i < |r| ==> r[i] == Tick(start, step, i)
    ensures forall i :: 0 <= i < |r| ==> r[i] < stop
    ensures Tick(start, step, |r|) >= stop
  {
    var n := ArangeLen(start, stop, step);
    ArangeLenBounds(start, stop, step);
    seq(n, i requires 0 <= i < n => Tick(start, step, i))
  }

  /** The ticks before `ArangeLen` lie below `stop`; the one at `ArangeLen` does not. */
  lemma ArangeLenBounds(start: real, stop: real, step: real)
    requires step > 0.0
    ensures forall i: nat :: i < ArangeLen(start, stop, step) ==> Tick(start, step, i) < stop
    ensures Tick(start, step, ArangeLen(start, stop, step)) >= stop
  {
    var n := ArangeLen(start, stop, step);
    if n > 0 {
      var x := (stop - start) / step;
      CeilBounds(x);
      assert x * step == stop - start;
      forall i: nat | i < n
        ensures Tick(start, step, i) < stop
      {
        ScalePreservesLess(i as real, x, step);
      }
      ScalePreservesAtMost(x, n as real, step);
    }
  }

  /** Ticks grow strictly with their index. */
  lemma TickIncreasing(start: real, step: real, i: nat, j: nat)
    requires step > 0.0 && i < j
    ensures Tick(start, step, i) < Tick(start, step, j)
  {
    ScalePreservesLess(i as real, j as real, step);
  }

  /** A value is in the axis exactly when it is a tick below `stop`. */
  lemma ArangeMembership(start: real, stop: real, step: real, x: real)
    requires step > 0.0
    ensures x in Arange(start, stop, step) <==>
              x < stop && exists i: nat :: x == Tick(start, step, i)
  {
    var r := Arange(start, stop, step);
    if x < stop && exists i: nat :: x == Tick(start, step, i) {
      var i: nat :| x == Tick(start, step, i);
      if i >= |r| {
        if i > |r| {
          TickIncreasing(start, step, |r|, i);
        }
        assert false;
      }
      assert r[i] == x;
    }
  }

  /** The axis is strictly increasing, hence duplicate-free. */
  lemma ArangeStrictlyIncreasing(start: real, stop: real, step: real)
    requires step > 0.0
    ensures var r := Arange(start, stop, step);
      forall i, j :: 0 <= i < j < |r| ==> r[i] < r[j]
    ensures Distinct(Arange(start, stop, step))
  {
    var r := Arange(start, stop, step);
    forall i, j | 0 <= i < j < |r|
      ensures r[i] < r[j]
    {
      TickIncreasing(start, step, i, j);
    }
  }

  /** One latitude row: the latitude paired with every longitude, in order. */
  function Row(lat: real, lons: seq<real>): (r: seq<Point>)
    ensures |r| == |lons|
    ensures forall j :: 0 <= j < |r| ==> r[j] == Point(lat, lons[j])
  {
    seq(|lons|, j requires 0 <= j < |lons| => Point(lat, lons[j]))
  }

  /** Every (latitude, longitude) pair, latitude in the outer loop and
      longitude in the inner one. */
  function Product(lats: seq<real>, lons: seq<real>): seq<Point> {
    if lats == [] then [] else Row(lats[0], lons) + Product(lats[1..], lons)
  }

  /** One step of the comprehension: the first row, then the rest. */
  lemma ProductUnfold(lats: seq<real>, lons: seq<real>)
    requires lats != []
    ensures Product(lats, lons) == Row(lats[0], lons) + Product(lats[1..], lons)
    ensures |Product(lats, lons)| == |lons| + |Product(lats[1..], lons)|
  {
  }

  lemma MulStep(i: nat, n: nat)
    requires i >= 1
    ensures i * n == (i - 1) * n + n
  {
  }

  /** The point list has one entry per (latitude, longitude) pair. */
  lemma {:induction false} ProductLength(lats: seq<real>, lons: seq<real>)
    ensures |Product(lats, lons)| == |lats| * |lons|
  {
    if lats != [] {
      ProductUnfold(lats, lons);
      ProductLength(lats[1..], lons);
      MulStep(|lats|, |lons|);
    }
  }

  /** A point is in the list exactly when its latitude is on the latitude
      axis and its longitude on the longitude axis. */
  lemma {:induction false} ProductMembership(lats: seq<real>, lons: seq<real>, p: Point)
    ensures p in Product(lats, lons) <==> p.lat in lats && p.lon in lons
  {
    if lats != [] {
      ProductUnfold(lats, lons);
      ProductMembership(lats[1..], lons, p);
      assert p in Row(lats[0], lons) <==> p.lat == lats[0] && p.lon in lons;
      assert p.lat in lats <==> p.lat == lats[0] || p.lat in lats[1..];
    }
  }

  /** Row-major order: the point at offset `i * |lons| + j` pairs the i-th
      latitude with the j-th longitude. */
  lemma {:induction false} ProductRowMajor(lats: seq<real>, lons: seq<real>, i: nat, j: nat)
    requires i < |lats| && j < |lons|
    ensures i * |lons| + j < |Product(lats, lons)|
    ensures Product(lats, lons)[i * |lons| + j] == Point(lats[i], lons[j])
  {
    ProductUnfold(lats, lons);
    if i == 0 {
      assert Product(lats, lons)[j] == Row(lats[0], lons)[j];
    } else {
      var k := (i - 1) * |lons| + j;
      ProductRowMajor(lats[1..], lons, i - 1, j);
      MulStep(i, |lons|);
      assert Product(lats, lons)[|lons| + k] == Product(lats[1..], lons)[k];
    }
  }

  /** Distinct latitudes and distinct longitudes give distinct lattice points. */
  lemma {:induction false} ProductDistinct(lats: seq<real>, lons: seq<real>)
    requires Distinct(lats) && Distinct(lons)
    ensures Distinct(Product(lats, lons))
  {
    if lats != [] {
      var row := Row(lats[0], lons);
      var rest := Product(lats[1..], lons);
      ProductDistinct(lats[1..], lons);
      assert lats[0] !in lats[1..];
      forall p | p in row
        ensures p !in rest
      {
        ProductMembership(lats[1..], lons, p);
      }
      ProductUnfold(lats, lons);
      DistinctConcat(row, rest);
    }
  }

  /** The arguments of `GridPointSelector(lat_range, lon_range, step)`. */
  datatype GridSpec = GridSpec(latMin: real, latMax: real, lonMin: real, lonMax: real, step: real)

  function Lats(g: GridSpec): seq<real>
    requires g.step > 0.0
  {
    Arange(g.latMin, g.latMax, g.step)
  }

  function Lons(g: GridSpec): seq<real>
    requires g.step > 0.0
  {
    Arange(g.lonMin, g.lonMax, g.step)
  }

  /** `GridPointSelector.points`: every (lat, lon) of the two axes, each once. */
  function LatticePoints(g: GridSpec): (pts: seq<Point>)
    requires g.step > 0.0
    ensures |pts| == |Lats(g)| * |Lons(g)|
    ensures Distinct(pts)
    ensures forall p :: p in pts <==> p.lat in Lats(g) && p.lon in Lons(g)
  {
    ArangeStrictlyIncreasing(g.latMin, g.latMax, g.step);
    ArangeStrictlyIncreasing(g.lonMin, g.lonMax, g.step);
    ProductDistinct(Lats(g), Lons(g));
    ProductLength(Lats(g), Lons(g));
    forall p
      ensures p in Product(Lats(g), Lons(g)) <==> p.lat in Lats(g) && p.lon in Lons(g)
    {
      ProductMembership(Lats(g), Lons(g), p);
    }
    Product(Lats(g), Lons(g))
  }

  /** A grid whose extent is not empty on either axis has at least one node. */
  lemma LatticeNonEmpty(g: GridSpec)
    requires g.step > 0.0 && g.latMin < g.latMax && g.lonMin < g.lonMax
    ensures |LatticePoints(g)| >= 1
  {
    assert |Lats(g)| >= 1 && |Lons(g)| >= 1;
    MulStep(|Lats(g)|, |Lons(g)|);
  }
}

=== FILE: map_generator.dfy ===
/** `MapGenerator` (pyatmo/map_points.py) without the rendering libraries:
    the fixed model catalogue, the per-model selection, the grouping, the
    colour decisions, the output-path normalisation, and the list of markers
    or placemarks an export would draw. Writing the HTML or KML file itself
    is left to the caller of the model. */
module MapGenerator {
  import opened Basics
  import opened Text
  import opened Lattice
  import opened Selection
  import opened Grouping
  import opened Hex

  /** `self.model_selectors`: every model shares the global extent and differs
      only in its step. */
  const Catalogue: map<ModelName, GridSpec> := map[
    "ECMWF" := GridSpec(-90.0, 90.0, -180.0, 180.0, 0.1),
    "GFS_0.5" := GridSpec(-90.0, 90.0, -180.0, 180.0, 0.5),
    "GFS_0.25" := GridSpec(-90.0, 90.0, -180.0, 180.0, 0.25),
    "UKMET" := GridSpec(-90.0, 90.0, -180.0, 180.0, 0.2),
    "NCEP" := GridSpec(-90.0, 90.0, -180.0, 180.0, 0.25),
    "DWD" := GridSpec(-90.0, 90.0, -180.0, 180.0, 0.1),
    "METEOFRANCE" := GridSpec(-90.0, 90.0, -180.0, 180.0, 0.1),
    "CMCC" := GridSpec(-90.0, 90.0, -180.0, 180.0, 0.25),
    "JMA" := GridSpec(-90.0, 90.0, -180.0, 180.0, 0.2)
  ]

  /** `_get_color_map()`. */
  const ColorMap: map<string, string> := map[
    "GFS_0.5" := "red",
    "GFS_0.25" := "darkred",
    "ECMWF" := "green",
    "UKMET" := "blue",
    "NCEP" := "orange",
    "DWD" := "orange",
    "METEOFRANCE" := "darkred",
    "CMCC" := "darkgreen",
    "JMA" := "darkblue",
    "COMMON" := "cadetblue",
    "OBJECTIVE" := "black"
  ]

  /** The colour given to a point shared by several models. */
  const SharedColor: string := "purple"

  /** Every catalogue grid has a positive step, and every catalogue model has
      a colour of its own, none of which is the shared colour. */
  lemma CatalogueIsConsistent()
    ensures forall m :: m in Catalogue ==> Catalogue[m].step > 0.0
    ensures forall m :: m in Catalogue ==> m in ColorMap && ColorMap[m] != SharedColor
  {
  }

  /** The exceptions the export functions can raise. */
  datatype MapError =
    | UnknownModel(name: ModelName)  // KeyError from `self.model_selectors[model]` or the colour map
    | NoFilename                     // `None.lower()` when neither a filename nor a directory is given
    | NotHex(text: string)           // ValueError from `bytes.fromhex`
    | RgbArity(count: nat)           // TypeError: `Color.rgb` takes three or four values

  /** The keys of a dict built from `models`: each name once, in order of
      first occurrence (`DedupFirstOccurrence`). */
  function Dedup(models: seq<ModelName>): (r: seq<ModelName>)
    ensures Distinct(r)
    ensures forall m :: m in r <==> m in models
  {
    if models == [] then []
    else
      var init := models[..|models| - 1];
      var last := models[|models| - 1];
      var d := Dedup(init);
      assert forall m :: m in models <==> m in init || m == last;
      if last in d then d else DistinctConcat(d, [last]); d + [last]
  }

  /** A request that names every model once is kept as it is. */
  lemma {:induction false} DedupOfDistinct(models: seq<ModelName>)
    requires Distinct(models)
    ensures Dedup(models) == models
  {
    if models != [] {
      var init := models[..|models| - 1];
      assert Distinct(init);
      DedupOfDistinct(init);
      assert models[|models| - 1] !in init;
      assert init + [models[|models| - 1]] == models;
    }
  }

  /** `r` lists names of `models` in the order in which they first occur there. */
  predicate InFirstOccurrenceOrder(models: seq<ModelName>, r: seq<ModelName>) {
    && (forall x :: x in r ==> x in models)
    && forall i, j :: 0 <= i < j < |r| ==> FirstIndex(models, r[i]) < FirstIndex(models, r[j])
  }

  /** The keys come in the order in which the names first occur in the
      request. */
  lemma {:induction false} DedupFirstOccurrence(models: seq<ModelName>)
    ensures InFirstOccurrenceOrder(models, Dedup(models))
  {
    if models != [] {
      var init := models[..|models| - 1];
      var last := models[|models| - 1];
      assert models == init + [last];
      var d := Dedup(init);
      DedupFirstOccurrence(init);
      var r := Dedup(models);
      assert r == if last in d then d else d + [last];
      if last !in d {
        assert models[..|init|] == init;
        FirstIndexUnique(models, last, |init|);
      }
      forall i, j | 0 <= i < j < |r|
        ensures FirstIndex(models, r[i]) < FirstIndex(models, r[j])
      {
        assert r[i] == d[i] && d[i] in d;
        FirstIndexOfPrefix(init, [last], d[i]);
        if j < |d| {
          assert r[j] == d[j] && d[j] in d;
          FirstIndexOfPrefix(init, [last], d[j]);
        }
      }
    }
  }

  /** Position of the first model the catalogue does not know. */
  function FirstUnknown(models: seq<ModelName>): (i: nat)
    requires exists m :: m in models && m !in Catalogue
    ensures i < |models| && models[i] !in Catalogue
    ensures forall k :: 0 <= k < i ==> models[k] in Catalogue
  {
    if models[0] !in Catalogue then 0
    else
      assert forall m :: m in models[1..] <==> m in models && (m != models[0] || m in models[1..]);
      assert exists m :: m in models[1..] && m !in Catalogue;
      1 + FirstUnknown(models[1..])
  }

  /** The `closest_points` dict: one nearest-point selection per distinct
      requested model, or the KeyError of the first model missing from the
      catalogue. */
  function ClosestPoints(q: Point, n: int, models: seq<ModelName>): (r: Result<seq<ModelPoints>, MapError>)
    ensures r.Err? <==> exists m :: m in models && m !in Catalogue
    ensures r.Err? ==> r.error == UnknownModel(models[FirstUnknown(models)])
    ensures r.Ok? ==> |r.value| == |Dedup(models)|
    ensures r.Ok? ==> forall k :: 0 <= k < |r.value| ==>
      && r.value[k].model == Dedup(models)[k]
      && r.value[k].model in Catalogue
      && r.value[k].points == SelectClosest(Catalogue[r.value[k].model], q, n)
  {
    if exists m :: m in models && m !in Catalogue then
      Err(UnknownModel(models[FirstUnknown(models)]))
    else
      CatalogueIsConsistent();
      var d := Dedup(models);
      Ok(seq(|d|, k requires 0 <= k < |d| => ModelPoints(d[k], SelectClosest(Catalogue[d[k]], q, n))))
  }

  /** `closest_points` followed by the grouping loop, shared by `create_map`
      and `create_map_kml`. */
  function CreateGroups(q: Point, n: int, models: seq<ModelName>): (r: Result<PointGroups, MapError>)
    ensures r.Err? <==> exists m :: m in models && m !in Catalogue
    ensures r.Err? ==> r.error == UnknownModel(models[FirstUnknown(models)])
    ensures r.Ok? ==> WellFormed(r.value)
  {
    match ClosestPoints(q, n, models)
    case Err(e) => Err(e)
    case Ok(sels) => Ok(GroupSelections(sels))
  }

  /** For a successful request, the group of every point lists exactly the
      requested models (each once, in order of first request) whose nearest
      points include it; a point no model chose has no group. */
  lemma CreateGroupsPartition(q: Point, n: int, models: seq<ModelName>, p: Point)
    requires forall m :: m in models ==> m in Catalogue
    ensures CreateGroups(q, n, models).Ok?
    ensures ModelsAt(CreateGroups(q, n, models).value, p) == ModelsSelecting(ClosestPoints(q, n, models).value, p)
  {
    CatalogueIsConsistent();
    GroupsAreModelsSelecting(ClosestPoints(q, n, models).value, p);
  }

  /** For a successful request, the group model lists together hold exactly
      as many entries as the selections, and each selection holds
      `min(n, |lattice|)` points for `n >= 0`. */
  lemma CreateGroupsConservation(q: Point, n: int, models: seq<ModelName>)
    requires forall m :: m in models ==> m in Catalogue
    ensures CreateGroups(q, n, models).Ok?
    ensures var sels := ClosestPoints(q, n, models).value;
      && GroupSizeTotal(CreateGroups(q, n, models).value) == SelectedTotal(sels)
      && forall k :: 0 <= k < |sels| && n >= 0 ==>
           && Catalogue[sels[k].model].step > 0.0
           && |sels[k].points| == Min(n, |LatticePoints(Catalogue[sels[k].model])|)
  {
    CatalogueIsConsistent();
    GroupingConservesPairs(ClosestPoints(q, n, models).value);
  }

  /** `_get_group_color(models, color_map)`: a lone model's own colour (a
      KeyError when it has none), otherwise purple. */
  function GroupColor(models: seq<ModelName>, colors: map<string, string>): (r: Option<string>)
    ensures r.None? <==> |models| == 1 && models[0] !in colors
  {
    if |models| == 1 then
      if models[0] in colors then Some(colors[models[0]]) else None
    else Some(SharedColor)
  }

  /** For a group of catalogue models the lookup never fails, and the colour
      is purple exactly when two or more models share the point, since no
      catalogue model is purple itself. */
  lemma GroupColorMarksShared(models: seq<ModelName>)
    requires models != [] && forall m :: m in models ==> m in Catalogue
    ensures GroupColor(models, ColorMap).Some?
    ensures GroupColor(models, ColorMap).value == SharedColor <==> |models| >= 2
    ensures |models| == 1 ==> GroupColor(models, ColorMap).value == ColorMap[models[0]]
  {
    CatalogueIsConsistent();
    assert models[0] in models;
  }

  /** The arguments `_get_kml_color` spreads into simplekml's
      `Color.rgb(r, g, b, a=255)`. */
  datatype KmlColor = Rgba(r: nat, g: nat, b: nat, a: nat)

  /** `[128, 0, 128]`, with the default opacity. */
  const SharedKmlColor: KmlColor := Rgba(128, 0, 128, 255)

  /** The lone-model branch of `_get_kml_color` fed to `Color.rgb`: the
      colour name without its first character is read as hexadecimal bytes,
      which must be three or four arguments for `rgb`. */
  function ColorValues(name: string): (r: Result<KmlColor, MapError>)
    ensures r.Ok? ==> IsByte(r.value.r) && IsByte(r.value.g) && IsByte(r.value.b) && IsByte(r.value.a)
    ensures r.Ok? ==> |name| >= 7
    ensures r.Err? <==> name == [] || FromHex(name[1..]).None? || |FromHex(name[1..]).value| !in {3, 4}
  {
    var text := if name == [] then [] else name[1..];
    match FromHex(text)
    case None => Err(NotHex(text))
    case Some(bs) =>
      if |bs| == 3 then Ok(Rgba(bs[0], bs[1], bs[2], 255))
      else if |bs| == 4 then Ok(Rgba(bs[0], bs[1], bs[2], bs[3]))
      else Err(RgbArity(|bs|))
  }

  /** A colour written as `#rrggbb` gives its own red, green and blue at full
      opacity. */
  lemma HexCodeColor(r: nat, g: nat, b: nat)
    requires IsByte(r) && IsByte(g) && IsByte(b)
    ensures ColorValues("#" + ToHex([r, g, b])) == Ok(Rgba(r, g, b, 255))
  {
    FromHexToHex([r, g, b]);
    assert ("#" + ToHex([r, g, b]))[1..] == ToHex([r, g, b]);
  }

  /** `_get_kml_color(models, color_map)`: purple for a shared point,
      otherwise the lone model's colour converted by `ColorValues`. */
  function KmlColorFor(models: seq<ModelName>, colors: map<string, string>): (r: Result<KmlColor, MapError>)
    ensures |models| != 1 ==> r == Ok(SharedKmlColor)
    ensures |models| == 1 && models[0] !in colors ==> r == Err(UnknownModel(models[0]))
    ensures |models| == 1 && models[0] in colors ==> r == ColorValues(colors[models[0]])
  {
    if |models| == 1 then
      if models[0] in colors then ColorValues(colors[models[0]]) else Err(UnknownModel(models[0]))
    else Ok(SharedKmlColor)
  }

  /** Not one colour name of the colour map converts: "red" leaves the
      single byte 0xed, too few arguments for `rgb` (TypeError), and every
      other name stops at a character that is not hexadecimal (ValueError).
      So a point chosen by one model alone cannot be placed in a KML file. */
  lemma LoneModelKmlColorRaises(m: ModelName)
    requires m in ColorMap
    ensures ColorMap[m] == "red" ==> KmlColorFor([m], ColorMap) == Err(RgbArity(1))
    ensures ColorMap[m] != "red" ==> KmlColorFor([m], ColorMap) == Err(NotHex(ColorMap[m][1..]))
  {
    var c := ColorMap[m];
    assert c in {"red", "darkred", "green", "blue", "orange", "darkgreen", "darkblue", "cadetblue", "black"};
    assert c[1..] in {"ed", "arkred", "reen", "lue", "range", "arkgreen", "arkblue", "adetblue", "lack"};
    if c == "red" {
      var t := "ed";
      assert t[0] == 'e' && t[1] == 'd' && t[2..] == [];
      assert !IsAsciiSpace(t[0]) && IsHexDigit(t[0]) && IsHexDigit(t[1]);
      assert DigitValue(t[0]) * 16 + DigitValue(t[1]) == 237;
      assert FromHex(t[2..]) == Some([]);
      var v := DigitValue(t[0]) * 16 + DigitValue(t[1]);
      assert FromHex(t) == Some([v] + []);
      assert [v] + [] == [237];
    } else if c == "darkred" || c == "darkgreen" || c == "darkblue" {
      assert IsHexDigit(c[1]) && !IsHexDigit(c[2]) && !IsAsciiSpace(c[1]);
    } else if c == "cadetblue" {
      assert FromHex(c[1..][2..]) == None by {
        assert c[1..][2..][0] == 'e' && c[1..][2..][1] == 't';
      }
    } else {
      assert !IsHexDigit(c[1]) && !IsAsciiSpace(c[1]);
    }
  }

  /** A folium marker: one per group, plus the marker at the query. */
  datatype Marker =
    | GroupMarker(at: Point, models: seq<ModelName>, color: string)
    | QueryMarker(at: Point, title: string)

  /** A simplekml placemark: one per group, plus the objective. */
  datatype Placemark =
    | GroupPlacemark(at: Point, description: seq<ModelName>, color: KmlColor)
    | ObjectivePlacemark(at: Point)

  /** The marker loop of `create_map`, over `point_groups` in insertion order,
      stopping at the first group whose colour lookup raises. */
  function GroupMarkers(order: seq<Point>, members: map<Point, seq<ModelName>>): (r: Result<seq<Marker>, MapError>)
    requires forall p :: p in order ==> p in members
    ensures r.Ok? ==> |r.value| == |order|
    ensures r.Ok? ==> forall i :: 0 <= i < |order| ==>
      GroupColor(members[order[i]], ColorMap).Some? &&
      r.value[i] == GroupMarker(order[i], members[order[i]], GroupColor(members[order[i]], ColorMap).value)
    ensures r.Err? <==> exists i :: 0 <= i < |order| && GroupColor(members[order[i]], ColorMap).None?
  {
    if order == [] then Ok([])
    else
      var models := members[order[0]];
      match GroupColor(models, ColorMap)
      case None => Err(UnknownModel(models[0]))
      case Some(c) =>
        match GroupMarkers(order[1..], members)
        case Err(e) => Err(e)
        case Ok(rest) =>
          Ok([GroupMarker(order[0], models, c)] + rest)
  }

  /** The placemark loop of `create_map_kml`, over `point_groups` in
      insertion order, stopping at the first group whose colour conversion
      raises. */
  function GroupPlacemarks(order: seq<Point>, members: map<Point, seq<ModelName>>): (r: Result<seq<Placemark>, MapError>)
    requires forall p :: p in order ==> p in members
    ensures r.Ok? ==> |r.value| == |order|
    ensures r.Ok? ==> forall i :: 0 <= i < |order| ==>
      KmlColorFor(members[order[i]], ColorMap).Ok? &&
      r.value[i] == GroupPlacemark(order[i], members[order[i]], KmlColorFor(members[order[i]], ColorMap).value)
    ensures r.Err? <==> exists i :: 0 <= i < |order| && KmlColorFor(members[order[i]], ColorMap).Err?
    ensures r.Err? ==> exists i :: 0 <= i < |order| && KmlColorFor(members[order[i]], ColorMap) == Err(r.error)
  {
    if order == [] then Ok([])
    else
      var models := members[order[0]];
      match KmlColorFor(models, ColorMap)
      case Err(e) => Err(e)
      case Ok(c) =>
        match GroupPlacemarks(order[1..], members)
        case Err(e) =>
          assert forall i :: 0 <= i < |order| - 1 ==> order[1..][i] == order[i + 1];
          Err(e)
        case Ok(rest) =>
          Ok([GroupPlacemark(order[0], models, c)] + rest)
  }

  /** The name part of `_get_full_path`: the extension is appended unless the
      name already ends in `.ext`, compared case-insensitively. */
  function WithExtension(filename: string, ext: string): (r: string)
    ensures r == filename || r == filename + "." + ext
    ensures r == filename <==> EndsWith(Lower(filename), "." + ext)
  {
    if EndsWith(Lower(filename), "." + ext) then filename else filename + "." + ext
  }

  /** `_get_full_path(filename, path_file, extension)`. */
  function FullPath(filename: Option<string>, pathFile: Option<string>, ext: string): (r: Option<string>)
    ensures r.None? <==> filename.None? && pathFile.None?
    ensures pathFile.Some? && filename.None? ==>
      r == Some(Join(pathFile.value, "closest_points_map." + ext))
    ensures pathFile.Some? && filename.Some? ==>
      r == Some(Join(pathFile.value, WithExtension(filename.value, ext)))
    ensures pathFile.None? && filename.Some? ==> r == Some(WithExtension(filename.value, ext))
  {
    if pathFile.Some? then
      var name := if filename.None? then "closest_points_map." + ext
                  else if !EndsWith(Lower(filename.value), "." + ext) then filename.value + "." + ext
                  else filename.value;
      Some(Join(pathFile.value, name))
    else if filename.None? then None
    else if EndsWith(Lower(filename.value), "." + ext) then Some(filename.value)
    else Some(filename.value + "." + ext)
  }

  lemma EndsWithTrans(s: string, t: string, u: string)
    requires EndsWith(s, t) && EndsWith(t, u)
    ensures EndsWith(s, u)
  {
    assert s[|s| - |u|..] == t[|t| - |u|..];
  }

  lemma EndsWithLower(s: string, t: string)
    requires EndsWith(s, t)
    ensures EndsWith(Lower(s), Lower(t))
  {
    var pre := s[..|s| - |t|];
    assert s == pre + t;
    LowerConcat(pre, t);
    EndsWithConcat(Lower(pre), Lower(t));
  }

  /** A name given the extension suffix ends in it once lower-cased. */
  lemma SuffixedHasExtension(stem: string, ext: string)
    requires IsLower(ext)
    ensures EndsWith(Lower(stem + "." + ext), "." + ext)
  {
    var dotExt := "." + ext;
    assert stem + "." + ext == stem + dotExt;
    LowerConcat(stem, dotExt);
    LowerOfLower(dotExt);
    EndsWithConcat(Lower(stem), dotExt);
  }

  /** `WithExtension` always leaves a name ending in `.ext`. */
  lemma WithExtensionHasExtension(filename: string, ext: string)
    requires IsLower(ext)
    ensures EndsWith(Lower(WithExtension(filename, ext)), "." + ext)
  {
    if !EndsWith(Lower(filename), "." + ext) {
      SuffixedHasExtension(filename, ext);
    }
  }

  /** With a lower-case extension, the name handed to the writer always ends
      in `.ext` once lower-cased, whichever branch produced it. */
  lemma FullPathHasExtension(filename: Option<string>, pathFile: Option<string>, ext: string)
    requires IsLower(ext)
    requires FullPath(filename, pathFile, ext).Some?
    ensures EndsWith(Lower(FullPath(filename, pathFile, ext).value), "." + ext)
  {
    if pathFile.None? {
      WithExtensionHasExtension(filename.value, ext);
    } else if filename.None? {
      SuffixedHasExtension("closest_points_map", ext);
      JoinKeepsExtension(pathFile.value, "closest_points_map." + ext, ext);
    } else {
      WithExtensionHasExtension(filename.value, ext);
      JoinKeepsExtension(pathFile.value, WithExtension(filename.value, ext), ext);
    }
  }

  /** Joining a directory in front keeps the name's extension. */
  lemma JoinKeepsExtension(dir: string, name: string, ext: string)
    requires EndsWith(Lower(name), "." + ext)
    ensures EndsWith(Lower(Join(dir, name)), "." + ext)
  {
    var full := Join(dir, name);
    EndsWithLower(full, name);
    EndsWithTrans(Lower(full), Lower(name), "." + ext);
  }

  /** Normalising a bare file name twice gives the same name as once. */
  lemma FullPathIdempotent(filename: string, ext: string)
    requires IsLower(ext)
    ensures var once := FullPath(Some(filename), None, ext);
      once.Some? && FullPath(once, None, ext) == once
  {
    FullPathHasExtension(Some(filename), None, ext);
  }

  /** The files `create_map` would write: the markers and the target path. */
  datatype HtmlExport = HtmlExport(markers: seq<Marker>, path: string)

  /** The files `create_map_kml` would write: the placemarks and the target path. */
  datatype KmlExport = KmlExport(placemarks: seq<Placemark>, path: string)

  /** `MapGenerator.create_map` up to `m.save(filename)`. */
  function CreateMap(q: Point, n: int, filename: Option<string>, pathFile: Option<string>,
                     models: seq<ModelName>): (r: Result<HtmlExport, MapError>)
    ensures (exists m :: m in models && m !in Catalogue) ==> r == Err(UnknownModel(models[FirstUnknown(models)]))
    ensures r.Ok? ==> FullPath(filename, pathFile, "html") == Some(r.value.path)
    ensures r.Ok? ==>
      && CreateGroups(q, n, models).Ok?
      && var g := CreateGroups(q, n, models).value;
         && GroupMarkers(g.order, g.members).Ok?
         && r.value.markers == GroupMarkers(g.order, g.members).value + [QueryMarker(q, "POINT")]
  {
    match CreateGroups(q, n, models)
    case Err(e) => Err(e)
    case Ok(g) =>
      match GroupMarkers(g.order, g.members)
      case Err(e) => Err(e)
      case Ok(markers) =>
        match FullPath(filename, pathFile, "html")
        case None => Err(NoFilename)
        case Some(path) => Ok(HtmlExport(markers + [QueryMarker(q, "POINT")], path))
  }

  /** `MapGenerator.create_map_kml` up to `kml.save(filename)`. */
  function CreateMapKml(q: Point, n: int, filename: Option<string>, pathFile: Option<string>,
                        models: seq<ModelName>): (r: Result<KmlExport, MapError>)
    ensures (exists m :: m in models && m !in Catalogue) ==> r == Err(UnknownModel(models[FirstUnknown(models)]))
    ensures r.Ok? ==> FullPath(filename, pathFile, "kml") == Some(r.value.path)
    ensures r.Ok? ==>
      && CreateGroups(q, n, models).Ok?
      && var g := CreateGroups(q, n, models).value;
         && GroupPlacemarks(g.order, g.members).Ok?
         && r.value.placemarks == GroupPlacemarks(g.order, g.members).value + [ObjectivePlacemark(q)]
  {
    match CreateGroups(q, n, models)
    case Err(e) => Err(e)
    case Ok(g) =>
      match GroupPlacemarks(g.order, g.members)
      case Err(e) => Err(e)
      case Ok(placemarks) =>
        match FullPath(filename, pathFile, "kml")
        case None => Err(NoFilename)
        case Some(path) => Ok(KmlExport(placemarks + [ObjectivePlacemark(q)], path))
  }

  /** Every group of a successful request is non-empty, holds catalogue
      models only, and is exactly the list of models that chose its point. */
  lemma GroupOfSelectedPoint(q: Point, n: int, models: seq<ModelName>, p: Point)
    requires forall m :: m in models ==> m in Catalogue
    requires p in CreateGroups(q, n, models).value.members
    ensures var g := CreateGroups(q, n, models).value;
      && g.members[p] == ModelsSelecting(ClosestPoints(q, n, models).value, p)
      && |g.members[p]| >= 1
      && forall m :: m in g.members[p] ==> m in Catalogue
  {
    var sels := ClosestPoints(q, n, models).value;
    assert CreateGroups(q, n, models).value == GroupSelections(sels);
    forall k | 0 <= k < |sels|
      ensures Distinct(sels[k].points) && sels[k].model in Catalogue.Keys
    {
    }
    GroupOfChosenPoint(sels, p, Catalogue.Keys);
  }

  /** Marker colours of any dict whose groups are non-empty lists of
      catalogue models: no lookup fails, and a marker is purple exactly for a
      group of two or more models, else the lone model's own colour. */
  lemma MarkerColors(g: PointGroups)
    requires WellFormed(g)
    requires forall p :: p in g.members ==> |g.members[p]| >= 1
    requires forall p, m :: p in g.members && m in g.members[p] ==> m in Catalogue
    ensures var r := GroupMarkers(g.order, g.members);
      && r.Ok?
      && |r.value| == |g.order|
      && forall i :: 0 <= i < |g.order| ==>
           && r.value[i].at == g.order[i]
           && (r.value[i].color == SharedColor <==> |g.members[g.order[i]]| >= 2)
           && (|r.value[i].models| == 1 ==> r.value[i].color == ColorMap[r.value[i].models[0]])
  {
    CatalogueIsConsistent();
    forall i | 0 <= i < |g.order|
      ensures GroupColor(g.members[g.order[i]], ColorMap).Some?
    {
      assert g.members[g.order[i]][0] in g.members[g.order[i]];
    }
    var r := GroupMarkers(g.order, g.members);
    forall i | 0 <= i < |g.order|
      ensures r.value[i].color == SharedColor <==> |g.members[g.order[i]]| >= 2
    {
      var ms := g.members[g.order[i]];
      assert ms[0] in ms;
    }
  }

  /** Colour decision of the HTML export: for catalogue models, no colour
      lookup fails, there is one marker per distinct selected point, and a
      marker is purple exactly when two or more models chose its point;
      otherwise it carries the lone model's own colour. */
  lemma HtmlMarkerColors(q: Point, n: int, models: seq<ModelName>)
    requires forall m :: m in models ==> m in Catalogue
    ensures var g := CreateGroups(q, n, models).value;
      var r := GroupMarkers(g.order, g.members);
      && r.Ok?
      && |r.value| == |g.order|
      && forall i :: 0 <= i < |g.order| ==>
           && r.value[i].at == g.order[i]
           && (r.value[i].color == SharedColor <==> |ModelsSelecting(ClosestPoints(q, n, models).value, g.order[i])| >= 2)
           && (|r.value[i].models| == 1 ==> r.value[i].color == ColorMap[r.value[i].models[0]])
  {
    var g := CreateGroups(q, n, models).value;
    forall p | p in g.members
      ensures |g.members[p]| >= 1
      ensures forall m :: m in g.members[p] ==> m in Catalogue
      ensures g.members[p] == ModelsSelecting(ClosestPoints(q, n, models).value, p)
    {
      GroupOfSelectedPoint(q, n, models, p);
    }
    MarkerColors(g);
  }

  /** Every point some requested model chose is chosen by at least one
      other requested model too. */
  predicate EveryPointShared(q: Point, n: int, models: seq<ModelName>)
    requires forall m :: m in models ==> m in Catalogue
  {
    var sels := ClosestPoints(q, n, models).value;
    forall p :: p in AllPoints(sels) ==> |ModelsSelecting(sels, p)| >= 2
  }

  /** Placemark colours of any dict whose groups are non-empty lists of
      colour-map models: the loop completes exactly when every group holds
      two or more models, and then every placemark is purple. */
  lemma PlacemarkColors(g: PointGroups)
    requires WellFormed(g)
    requires forall p :: p in g.members ==> |g.members[p]| >= 1
    requires forall p, m :: p in g.members && m in g.members[p] ==> m in ColorMap
    ensures var r := GroupPlacemarks(g.order, g.members);
      && (r.Ok? <==> forall p :: p in g.members ==> |g.members[p]| >= 2)
      && (r.Ok? ==> forall i :: 0 <= i < |r.value| ==>
            r.value[i] == GroupPlacemark(g.order[i], g.members[g.order[i]], SharedKmlColor))
  {
    var r := GroupPlacemarks(g.order, g.members);
    if p :| p in g.members && |g.members[p]| < 2 {
      assert p in g.order;
      var i :| 0 <= i < |g.order| && g.order[i] == p;
      var m := g.members[p][0];
      assert m in g.members[p];
      assert g.members[p] == [m];
      LoneModelKmlColorRaises(m);
      assert KmlColorFor(g.members[g.order[i]], ColorMap).Err?;
    } else {
      forall i | 0 <= i < |g.order|
        ensures KmlColorFor(g.members[g.order[i]], ColorMap) == Ok(SharedKmlColor)
      {
        assert g.order[i] in g.members;
      }
    }
  }

  /** Colour decision of the KML export: since no lone model's colour
      converts, the placemark loop completes exactly when every chosen point
      is shared, and then every placemark is purple `(128, 0, 128)`. */
  lemma KmlPlacemarkColors(q: Point, n: int, models: seq<ModelName>)
    requires forall m :: m in models ==> m in Catalogue
    ensures var g := CreateGroups(q, n, models).value;
      var r := GroupPlacemarks(g.order, g.members);
      && (r.Ok? <==> EveryPointShared(q, n, models))
      && (r.Ok? ==> forall i :: 0 <= i < |r.value| ==> r.value[i] == GroupPlacemark(g.order[i], g.members[g.order[i]], SharedKmlColor))
  {
    var g := CreateGroups(q, n, models).value;
    var sels := ClosestPoints(q, n, models).value;
    CatalogueIsConsistent();
    forall p | p in g.members
      ensures |g.members[p]| >= 1
      ensures g.members[p] == ModelsSelecting(sels, p)
      ensures forall m :: m in g.members[p] ==> m in ColorMap
    {
      GroupOfSelectedPoint(q, n, models, p);
    }
    PlacemarkColors(g);
  }

  /** A request naming any model the catalogue lacks makes both exports
      raise a KeyError, naming a model the catalogue lacks. */
  lemma UnknownModelRaises(q: Point, n: int, filename: Option<string>, pathFile: Option<string>,
                           models: seq<ModelName>, m: ModelName)
    requires m in models && m !in Catalogue
    ensures var r := CreateMap(q, n, filename, pathFile, models);
      r.Err? && r.error.UnknownModel? && r.error.name !in Catalogue
    ensures var r := CreateMapKml(q, n, filename, pathFile, models);
      r.Err? && r.error.UnknownModel? && r.error.name !in Catalogue
  {
    var i := FirstUnknown(models);
  }

  /** The HTML export succeeds for any request of catalogue models that
      names a file or a directory. */
  lemma CreateMapSucceeds(q: Point, n: int, filename: Option<string>, pathFile: Option<string>,
                          models: seq<ModelName>)
    requires forall m :: m in models ==> m in Catalogue
    ensures CreateMap(q, n, filename, pathFile, models).Ok? <==> filename.Some? || pathFile.Some?
  {
    HtmlMarkerColors(q, n, models);
  }

  /** The KML export of catalogue models succeeds exactly when a file or a
      directory is named and no chosen point belongs to one model alone. */
  lemma CreateMapKmlOutcome(q: Point, n: int, filename: Option<string>, pathFile: Option<string>,
                            models: seq<ModelName>)
    requires forall m :: m in models ==> m in Catalogue
    ensures CreateMapKml(q, n, filename, pathFile, models).Ok? <==>
      (filename.Some? || pathFile.Some?) && EveryPointShared(q, n, models)
  {
    KmlPlacemarkColors(q, n, models);
  }

  /** Every catalogue grid spans the globe, so it has at least one node. */
  lemma CatalogueGridsNonEmpty(m: ModelName)
    requires m in Catalogue
    ensures Catalogue[m].step > 0.0 && |LatticePoints(Catalogue[m])| >= 1
  {
    CatalogueIsConsistent();
    var g := Catalogue[m];
    assert g.latMin == -90.0 && g.latMax == 90.0 && g.lonMin == -180.0 && g.lonMax == 180.0;
    LatticeNonEmpty(g);
  }

  /** A KML request for one catalogue model and at least one point raises:
      each chosen point belongs to that model alone. */
  lemma SingleModelKmlRaises(q: Point, n: int, filename: Option<string>, pathFile: Option<string>, m: ModelName)
    requires m in Catalogue && n >= 1
    ensures CreateMapKml(q, n, filename, pathFile, [m]).Err?
  {
    CatalogueGridsNonEmpty(m);
    CreateGroupsConservation(q, n, [m]);
    DedupOfDistinct([m]);
    var sels := ClosestPoints(q, n, [m]).value;
    assert |sels| == 1 && |sels[0].points| >= 1;
    var p := sels[0].points[0];
    assert p in AllPoints(sels);
    assert sels[..0] == [];
    assert ModelsSelecting(sels, p) == [m];
    CreateMapKmlOutcome(q, n, filename, pathFile, [m]);
  }
}

=== FILE: scenarios.dfy ===
/** Worked requests against the real catalogue: concrete lattice nodes,
    nearest points and shared groups that the general contracts pin down. */
module Scenarios {
  import opened Basics
  import opened Lattice
  import opened Selection
  import opened Grouping
  import opened MapGenerator

  lemma SqOfNegation(x: real)
    ensures Sq(-x) == Sq(x)
  {
    assert (-x) * (-x) == x * x;
  }

  lemma SqMonotone(c: real, e: real)
    requires 0.0 <= c <= e
    ensures Sq(c) <= Sq(e)
  {
    var m := Mul(e - c, e + c);
    assert m >= 0.0;
    assert m == Sq(e) - Sq(c);
  }

  /** A square grows with the distance from zero on either side. */
  lemma SqAtLeast(d: real, c: real)
    requires c >= 0.0 && (d >= c || d <= -c)
    ensures Sq(d) >= Sq(c)
  {
    if d >= c {
      SqMonotone(c, d);
    } else {
      SqMonotone(c, -d);
      SqOfNegation(d);
    }
  }

  const Madrid: Point := Point(40.41, -3.70)

  function EcmwfNode(i: nat, k: nat): Point {
    Point(Tick(-90.0, 0.1, i), Tick(-180.0, 0.1, k))
  }

  /** A node off row 1304 is at least 0.09 degrees of latitude away from
      the query; a node on row 1304 but off column 1763 is at least 0.1
      degrees of longitude away. */
  lemma EcmwfNodeGap(i: nat, k: nat)
    requires i != 1304 || k != 1763
    ensures var dLat := Tick(-90.0, 0.1, i) - 40.41;
      var dLon := Tick(-180.0, 0.1, k) - -3.70;
      (dLat >= 0.09 || dLat <= -0.09) || (dLon >= 0.1 || dLon <= -0.1)
  {
    if i != 1304 {
      assert i <= 1303 || i >= 1305;
    } else {
      assert k <= 1762 || k >= 1764;
    }
  }

  const EcmwfGrid: GridSpec := GridSpec(-90.0, 90.0, -180.0, 180.0, 0.1)

  /** The ECMWF lattice: 1800 latitudes from -90 (90 excluded) and 3600
      longitudes from -180 (180 excluded). */
  lemma EcmwfAxes()
    ensures Catalogue["ECMWF"] == EcmwfGrid
    ensures |Lats(EcmwfGrid)| == 1800 && |Lons(EcmwfGrid)| == 3600
  {
    assert (90.0 - -90.0) / 0.1 == 1800.0;
    assert (180.0 - -180.0) / 0.1 == 3600.0;
  }

  /** Every ECMWF lattice point is a node `(i, k)`. */
  lemma EcmwfPointIsNode(p: Point) returns (i: nat, k: nat)
    requires p in LatticePoints(EcmwfGrid)
    ensures p == EcmwfNode(i, k)
  {
    ArangeMembership(-90.0, 90.0, 0.1, p.lat);
    ArangeMembership(-180.0, 180.0, 0.1, p.lon);
    i :| p.lat == Tick(-90.0, 0.1, i);
    k :| p.lon == Tick(-180.0, 0.1, k);
  }

  /** Every other ECMWF lattice point is farther from the query than
      (40.4, -3.7). */
  lemma EcmwfOtherPointFarther(p: Point)
    requires p in LatticePoints(EcmwfGrid) && p != Point(40.4, -3.7)
    ensures DistSq(Point(40.4, -3.7), Madrid) < DistSq(p, Madrid)
  {
    var dLat := p.lat - 40.41;
    var dLon := p.lon - -3.70;
    assert (dLat >= 0.09 || dLat <= -0.09) || (dLon >= 0.1 || dLon <= -0.1) by {
      var i, k := EcmwfPointIsNode(p);
      assert i != 1304 || k != 1763 by {
        assert EcmwfNode(1304, 1763) == Point(40.4, -3.7);
      }
      EcmwfNodeGap(i, k);
    }
    AxisGapSquared(dLat, dLon);
    FartherThanMadridNode(p);
  }

  /** Squaring the axis gaps of a node other than (40.4, -3.7). */
  lemma AxisGapSquared(dLat: real, dLon: real)
    requires (dLat >= 0.09 || dLat <= -0.09) || (dLon >= 0.1 || dLon <= -0.1)
    ensures Sq(dLat) >= 0.0081 || Sq(dLon) >= 0.01
  {
    if dLat >= 0.09 || dLat <= -0.09 {
      SqAtLeast(dLat, 0.09);
      assert Sq(0.09) == 0.0081;
    } else {
      SqAtLeast(dLon, 0.1);
      assert Sq(0.1) == 0.01;
    }
  }

  /** A point whose squared gap to the query on either axis is that large is
      farther than (40.4, -3.7), whose squared distance is 0.0001. */
  lemma FartherThanMadridNode(p: Point)
    requires Sq(p.lat - 40.41) >= 0.0081 || Sq(p.lon - -3.70) >= 0.01
    ensures DistSq(Point(40.4, -3.7), Madrid) < DistSq(p, Madrid)
  {
    assert DistSq(Point(40.4, -3.7), Madrid) == 0.0001 by {
      assert Sq(40.4 - 40.41) == 0.0001;
      assert Sq(-3.7 - -3.70) == 0.0;
    }
  }

  /** (40.4, -3.7) sits at row 1304, column 1763 of the ECMWF lattice. */
  lemma EcmwfMadridOffset()
    ensures 1304 * 3600 + 1763 < |LatticePoints(EcmwfGrid)|
    ensures LatticePoints(EcmwfGrid)[1304 * 3600 + 1763] == Point(40.4, -3.7)
  {
    EcmwfAxes();
    assert LatticePoints(EcmwfGrid) == Product(Lats(EcmwfGrid), Lons(EcmwfGrid));
    ProductRowMajor(Lats(EcmwfGrid), Lons(EcmwfGrid), 1304, 1763);
    assert EcmwfNode(1304, 1763) == Point(40.4, -3.7);
  }

  /** The ECMWF request at (40.41, -3.70) ranks the node (40.4, -3.7) first. */
  lemma MadridNearestEcmwfNode(n: int)
    requires n >= 1
    ensures Catalogue["ECMWF"].step > 0.0
    ensures SelectClosest(Catalogue["ECMWF"], Madrid, n)[0] == Point(40.4, -3.7)
  {
    EcmwfAxes();
    EcmwfMadridOffset();
    forall p | p in LatticePoints(EcmwfGrid) && p != Point(40.4, -3.7)
      ensures DistSq(Point(40.4, -3.7), Madrid) < DistSq(p, Madrid)
    {
      EcmwfOtherPointFarther(p);
    }
    UniqueNearestIsFirst(EcmwfGrid, Madrid, n, Point(40.4, -3.7));
  }

  const Origin: Point := Point(0.0, 0.0)

  /** The origin is a node of every global grid whose step divides 90. */
  lemma OriginIsNode(g: GridSpec, steps: nat)
    requires g == GridSpec(-90.0, 90.0, -180.0, 180.0, g.step) && g.step > 0.0
    requires steps as real * g.step == 90.0
    ensures Origin in LatticePoints(g)
  {
    assert Tick(-90.0, g.step, steps) == 0.0;
    assert Tick(-180.0, g.step, 2 * steps) == 0.0;
    ArangeMembership(-90.0, 90.0, g.step, 0.0);
    ArangeMembership(-180.0, 180.0, g.step, 0.0);
  }

  /** A query sitting on a node of a grid has that node first. */
  lemma NodeQueryFirst(g: GridSpec, q: Point, n: int)
    requires g.step > 0.0 && q in LatticePoints(g) && n >= 1
    ensures |SelectClosest(g, q, n)| >= 1
    ensures SelectClosest(g, q, n)[0] == q
  {
    ExactHitIsFirst(LatticePoints(g), q, n);
  }

  /** The two GFS grids of the catalogue. */
  lemma GfsGrids()
    ensures "GFS_0.5" in Catalogue && "GFS_0.25" in Catalogue && "GFS_0.5" != "GFS_0.25"
    ensures Catalogue["GFS_0.5"] == GridSpec(-90.0, 90.0, -180.0, 180.0, 0.5)
    ensures Catalogue["GFS_0.25"] == GridSpec(-90.0, 90.0, -180.0, 180.0, 0.25)
  {
  }

  /** Two different catalogue models give two selections, in request order. */
  lemma ClosestPointsOfPair(q: Point, n: int, a: ModelName, b: ModelName)
    requires a in Catalogue && b in Catalogue && a != b
    ensures Catalogue[a].step > 0.0 && Catalogue[b].step > 0.0
    ensures var r := ClosestPoints(q, n, [a, b]);
      && r.Ok? && |r.value| == 2
      && r.value[0].model == a && r.value[0].points == SelectClosest(Catalogue[a], q, n)
      && r.value[1].model == b && r.value[1].points == SelectClosest(Catalogue[b], q, n)
  {
    CatalogueIsConsistent();
    DedupOfDistinct([a, b]);
    assert forall m :: m in [a, b] ==> m in Catalogue;
  }

  /** A catalogue model whose global grid has a step dividing 90 returns the
      origin first for a query at the origin. */
  lemma CatalogueOriginFirst(m: ModelName, step: real, steps: nat, n: int)
    requires m in Catalogue && Catalogue[m] == GridSpec(-90.0, 90.0, -180.0, 180.0, step)
    requires step > 0.0 && steps as real * step == 90.0 && n >= 1
    ensures |SelectClosest(Catalogue[m], Origin, n)| >= 1
    ensures SelectClosest(Catalogue[m], Origin, n)[0] == Origin
  {
    var g := GridSpec(-90.0, 90.0, -180.0, 180.0, step);
    OriginIsNode(g, steps);
    NodeQueryFirst(g, Origin, n);
  }

  /** The first points of the two selections of a two-model request are
      the first points each model selects on its own. */
  lemma PairFirstPoints(q: Point, n: int, a: ModelName, b: ModelName, pa: Point, pb: Point)
    requires a in Catalogue && b in Catalogue && a != b
    requires Catalogue[a].step > 0.0 && Catalogue[b].step > 0.0
    requires |SelectClosest(Catalogue[a], q, n)| >= 1 && SelectClosest(Catalogue[a], q, n)[0] == pa
    requires |SelectClosest(Catalogue[b], q, n)| >= 1 && SelectClosest(Catalogue[b], q, n)[0] == pb
    ensures var s := ClosestPoints(q, n, [a, b]);
      && s.Ok? && |s.value| == 2
      && s.value[0].model == a && s.value[1].model == b
      && |s.value[0].points| >= 1 && s.value[0].points[0] == pa
      && |s.value[1].points| >= 1 && s.value[1].points[0] == pb
  {
    ClosestPointsOfPair(q, n, a, b);
  }

  /** Two catalogue models on global grids whose steps divide 90 both return
      the origin first for a query at the origin. */
  lemma GlobalPairSelectOriginFirst(n: int, a: ModelName, b: ModelName, stepA: real, stepB: real, ka: nat, kb: nat)
    requires n >= 1 && a in Catalogue && b in Catalogue && a != b
    requires Catalogue[a] == GridSpec(-90.0, 90.0, -180.0, 180.0, stepA)
    requires Catalogue[b] == GridSpec(-90.0, 90.0, -180.0, 180.0, stepB)
    requires stepA > 0.0 && ka as real * stepA == 90.0
    requires stepB > 0.0 && kb as real * stepB == 90.0
    ensures var s := ClosestPoints(Origin, n, [a, b]);
      && s.Ok? && |s.value| == 2
      && s.value[0].model == a && s.value[1].model == b
      && |s.value[0].points| >= 1 && s.value[0].points[0] == Origin
      && |s.value[1].points| >= 1 && s.value[1].points[0] == Origin
  {
    CatalogueOriginFirst(a, stepA, ka, n);
    CatalogueOriginFirst(b, stepB, kb, n);
    PairFirstPoints(Origin, n, a, b, Origin, Origin);
  }

  /** The origin is the first point GFS at 0.5 and at 0.25 degrees select for
      a query at the origin. */
  lemma GfsSelectOriginFirst(n: int)
    requires n >= 1
    ensures var s := ClosestPoints(Origin, n, ["GFS_0.5", "GFS_0.25"]);
      && s.Ok? && |s.value| == 2
      && s.value[0].model == "GFS_0.5" && s.value[1].model == "GFS_0.25"
      && |s.value[0].points| >= 1 && s.value[0].points[0] == Origin
      && |s.value[1].points| >= 1 && s.value[1].points[0] == Origin
  {
    GfsGrids();
    GlobalPairSelectOriginFirst(n, "GFS_0.5", "GFS_0.25", 0.5, 0.25, 180, 360);
  }

  /** The selections of a two-model request come in request order. */
  lemma ClosestPointsOrder(q: Point, n: int, a: ModelName, b: ModelName)
    requires a in Catalogue && b in Catalogue && a != b
    ensures var r := ClosestPoints(q, n, [a, b]);
      r.Ok? && |r.value| == 2 && r.value[0].model == a && r.value[1].model == b
  {
    DedupOfDistinct([a, b]);
    assert forall m :: m in [a, b] ==> m in Catalogue;
  }

  /** A point that both models of a two-model request select is filed once,
      under both names in request order, and both exports colour it purple. */
  lemma PointChosenByBoth(q: Point, n: int, a: ModelName, b: ModelName, p: Point)
    requires a in Catalogue && b in Catalogue && a != b
    requires ClosestPoints(q, n, [a, b]).Ok? && |ClosestPoints(q, n, [a, b]).value| == 2
    requires p in ClosestPoints(q, n, [a, b]).value[0].points
    requires p in ClosestPoints(q, n, [a, b]).value[1].points
    ensures var g := CreateGroups(q, n, [a, b]);
      && g.Ok?
      && ModelsAt(g.value, p) == [a, b]
      && GroupColor(ModelsAt(g.value, p), ColorMap) == Some(SharedColor)
      && KmlColorFor(ModelsAt(g.value, p), ColorMap) == Ok(SharedKmlColor)
  {
    ClosestPointsOrder(q, n, a, b);
    ModelsSelectingBothOfTwo(ClosestPoints(q, n, [a, b]).value, p);
    CreateGroupsPartition(q, n, [a, b], p);
  }

  /** GFS at 0.5 and at 0.25 degrees both select the origin for a query at
      the origin, so the grouping files it once, under both model names, and
      both exports colour it purple. */
  lemma OriginSharedByGfsGrids(n: int)
    requires n >= 1
    ensures var g := CreateGroups(Origin, n, ["GFS_0.5", "GFS_0.25"]);
      && g.Ok?
      && ModelsAt(g.value, Origin) == ["GFS_0.5", "GFS_0.25"]
      && GroupColor(ModelsAt(g.value, Origin), ColorMap) == Some(SharedColor)
      && KmlColorFor(ModelsAt(g.value, Origin), ColorMap) == Ok(SharedKmlColor)
  {
    GfsSelectOriginFirst(n);
    var sels := ClosestPoints(Origin, n, ["GFS_0.5", "GFS_0.25"]).value;
    assert sels[0].points[0] in sels[0].points && sels[1].points[0] in sels[1].points;
    PointChosenByBoth(Origin, n, "GFS_0.5", "GFS_0.25", Origin);
  }

  /** Two catalogue models that select the same points share every point,
      so their KML export succeeds, all placemarks purple. */
  lemma SameSelectionKmlExport(q: Point, n: int, a: ModelName, b: ModelName,
                               filename: Option<string>, pathFile: Option<string>)
    requires a in Catalogue && b in Catalogue && a != b
    requires Catalogue[a].step > 0.0 && Catalogue[b].step > 0.0
    requires SelectClosest(Catalogue[a], q, n) == SelectClosest(Catalogue[b], q, n)
    requires filename.Some? || pathFile.Some?
    ensures CreateMapKml(q, n, filename, pathFile, [a, b]).Ok?
  {
    ClosestPointsOfPair(q, n, a, b);
    var sels := ClosestPoints(q, n, [a, b]).value;
    SameSelectionShared(sels);
    assert forall m :: m in [a, b] ==> m in Catalogue;
    assert EveryPointShared(q, n, [a, b]);
    CreateMapKmlOutcome(q, n, filename, pathFile, [a, b]);
  }

  /** Two selections of the same points list both models at every point. */
  lemma SameSelectionShared(sels: seq<ModelPoints>)
    requires |sels| == 2 && sels[0].points == sels[1].points
    ensures forall p :: p in AllPoints(sels) ==> |ModelsSelecting(sels, p)| >= 2
  {
    forall p | p in AllPoints(sels)
      ensures |ModelsSelecting(sels, p)| >= 2
    {
      ModelsSelectingBothOfTwo(sels, p);
    }
  }

  /** On a global grid whose step divides 90, the single nearest node to
      the origin is the origin itself, and nothing else is selected. */
  lemma OnlyNearestOfNode(g: GridSpec, steps: nat)
    requires g == GridSpec(-90.0, 90.0, -180.0, 180.0, g.step) && g.step > 0.0
    requires steps as real * g.step == 90.0
    ensures SelectClosest(g, Origin, 1) == [Origin]
  {
    OriginIsNode(g, steps);
    NodeQueryFirst(g, Origin, 1);
  }

  /** A KML export that does succeed: GFS at 0.5 and at 0.25 degrees, asked
      for the single nearest point to the origin, both give the origin, so
      no lone-model colour is converted. */
  lemma GfsOriginKmlExport()
    ensures CreateMapKml(Origin, 1, Some("gfs"), None, ["GFS_0.5", "GFS_0.25"]).Ok?
  {
    GfsGrids();
    OnlyNearestOfNode(GridSpec(-90.0, 90.0, -180.0, 180.0, 0.5), 180);
    OnlyNearestOfNode(GridSpec(-90.0, 90.0, -180.0, 180.0, 0.25), 360);
    SameSelectionKmlExport(Origin, 1, "GFS_0.5", "GFS_0.25", Some("gfs"), None);
  }

  /** A request for no point at all selects nothing (the code raises no
      error), and a request for more points than a grid holds returns every
      node of it. */
  lemma PointCountEdges(points: seq<Point>, q: Point, n: int)
    ensures SelectClosestPoints(points, q, 0) == []
    ensures n >= |points| ==> forall p :: p in points ==> p in SelectClosestPoints(points, q, n)
  {
    if n >= |points| {
      WholeListWhenNCoversIt(points, q, n);
    }
  }
}

=== FILE: selection.dfy ===
/** `GridPointSelector.select_closest_points` (pyatmo/map_points.py): rank
    every lattice point by its planar distance to the query with `np.argsort`
    and keep the first `n_points` of the ranking.

    The source compares `sqrt` of the squared distance; the square root is
    monotone on non-negative reals, so ranking by the squared distance gives
    the same order and the model never takes a root. `np.argsort` with its
    default algorithm is not stable, so the contracts here fix the selection
    only up to ties: the chosen points are sorted by distance and none is
    farther than any point left out. The sort below happens to be stable; that
    is one admissible tie order, not a promise. */
module Selection {
  import opened Basics
  import opened Lattice

  /** Real product, with the sign rules stated so the solver can use them
      without nonlinear reasoning. */
  function Mul(x: real, y: real): (m: real)
    ensures (x > 0.0 && y > 0.0) || (x < 0.0 && y < 0.0) ==> m > 0.0
    ensures x == 0.0 || y == 0.0 ==> m == 0.0
  {
    x * y
  }

  /** `x ** 2`: never negative, and zero only at zero. */
  function Sq(x: real): (s: real)
    ensures s >= 0.0
    ensures s == 0.0 <==> x == 0.0
  {
    Mul(x, x)
  }

  /** Squared planar distance in degree space (not great-circle distance):
      the square of what `np.sqrt` returns at pyatmo/map_points.py:26. */
  function DistSq(p: Point, q: Point): real {
    Sq(p.lat - q.lat) + Sq(p.lon - q.lon)
  }

  /** The squared distance is zero at the query and positive everywhere else. */
  lemma DistSqZeroOnlyAtQuery(p: Point, q: Point)
    ensures DistSq(p, q) >= 0.0
    ensures DistSq(p, q) == 0.0 <==> p == q
  {
  }

  /** Every index of `s` addresses a key of `ds`. */
  predicate InRange(ds: seq<real>, s: seq<nat>) {
    forall k :: 0 <= k < |s| ==> s[k] < |ds|
  }

  /** The keys of the listed indices never decrease. */
  predicate SortedBy(ds: seq<real>, s: seq<nat>)
    requires InRange(ds, s)
  {
    forall a, b :: 0 <= a < b < |s| ==> ds[s[a]] <= ds[s[b]]
  }

  /** Inserts index `i` into the key-sorted index list `s`, after every index
      whose key is not larger. */
  function Insert(ds: seq<real>, i: nat, s: seq<nat>): (r: seq<nat>)
    requires i < |ds| && InRange(ds, s)
    ensures |r| == |s| + 1 && InRange(ds, r)
    ensures forall x :: x in r <==> x == i || x in s
  {
    if s == [] || ds[i] < ds[s[0]] then [i] + s
    else
      assert forall x :: x in s <==> x == s[0] || x in s[1..];
      [s[0]] + Insert(ds, i, s[1..])
  }

  /** A lower bound on every key survives the insertion of a key above it. */
  lemma {:induction false} InsertAbove(ds: seq<real>, i: nat, s: seq<nat>, v: real)
    requires i < |ds| && InRange(ds, s) && v <= ds[i]
    requires forall k :: 0 <= k < |s| ==> v <= ds[s[k]]
    ensures forall k :: 0 <= k < |Insert(ds, i, s)| ==> v <= ds[Insert(ds, i, s)[k]]
  {
    if !(s == [] || ds[i] < ds[s[0]]) {
      var rest := Insert(ds, i, s[1..]);
      InsertAbove(ds, i, s[1..], v);
      assert forall k :: 1 <= k < |rest| + 1 ==> ([s[0]] + rest)[k] == rest[k - 1];
    }
  }

  /** Inserting into a sorted list keeps it sorted. */
  lemma {:induction false} InsertSorted(ds: seq<real>, i: nat, s: seq<nat>)
    requires i < |ds| && InRange(ds, s) && SortedBy(ds, s)
    ensures SortedBy(ds, Insert(ds, i, s))
  {
    var r := Insert(ds, i, s);
    if s == [] || ds[i] < ds[s[0]] {
      forall a, b | 0 <= a < b < |r|
        ensures ds[r[a]] <= ds[r[b]]
      {
        if a == 0 {
          assert ds[s[0]] <= ds[s[b - 1]];
        } else {
          assert r[a] == s[a - 1] && r[b] == s[b - 1];
        }
      }
    } else {
      var rest := Insert(ds, i, s[1..]);
      InsertSorted(ds, i, s[1..]);
      forall k | 0 <= k < |s[1..]|
        ensures ds[s[0]] <= ds[s[1..][k]]
      {
        assert s[1..][k] == s[k + 1];
      }
      InsertAbove(ds, i, s[1..], ds[s[0]]);
      forall a, b | 0 <= a < b < |r|
        ensures ds[r[a]] <= ds[r[b]]
      {
        assert r[b] == rest[b - 1];
        if a > 0 {
          assert r[a] == rest[a - 1];
        }
      }
    }
  }

  /** Inserting a new index into a duplicate-free list keeps it
      duplicate-free. */
  lemma {:induction false} InsertDistinct(ds: seq<real>, i: nat, s: seq<nat>)
    requires i < |ds| && InRange(ds, s) && Distinct(s) && i !in s
    ensures Distinct(Insert(ds, i, s))
  {
    if s == [] || ds[i] < ds[s[0]] {
      DistinctCons(i, s);
    } else {
      assert Distinct(s[1..]) && i !in s[1..];
      InsertDistinct(ds, i, s[1..]);
      assert s[0] !in s[1..];
      DistinctCons(s[0], Insert(ds, i, s[1..]));
    }
  }

  /** Insertion sort of the index list `s` by key. */
  function SortIndices(ds: seq<real>, s: seq<nat>): (r: seq<nat>)
    requires InRange(ds, s)
    ensures |r| == |s| && InRange(ds, r)
    ensures forall x :: x in r <==> x in s
    ensures SortedBy(ds, r)
    ensures Distinct(s) ==> Distinct(r)
  {
    if s == [] then []
    else
      var init := s[..|s| - 1];
      var last := s[|s| - 1];
      var sorted := SortIndices(ds, init);
      assert forall x :: x in s <==> x in init || x == last;
      InsertSorted(ds, last, sorted);
      assert Distinct(s) ==> Distinct(init) && last !in sorted;
      if Distinct(s) then
        InsertDistinct(ds, last, sorted);
        Insert(ds, last, sorted)
      else
        Insert(ds, last, sorted)
  }

  /** `np.argsort(ds)`: a permutation of the positions of `ds` that lists
      their keys in non-decreasing order. */
  function Argsort(ds: seq<real>): (r: seq<nat>)
    ensures |r| == |ds| && InRange(ds, r)
    ensures forall i :: 0 <= i < |ds| ==> i in r
    ensures Distinct(r)
    ensures SortedBy(ds, r)
  {
    var all := seq(|ds|, i requires 0 <= i < |ds| => i as nat);
    AllPositions(|ds|, all);
    SortIndices(ds, all)
  }

  lemma AllPositions(n: nat, all: seq<nat>)
    requires |all| == n && forall i :: 0 <= i < n ==> all[i] == i
    ensures forall i :: 0 <= i < n ==> i in all
    ensures Distinct(all)
  {
    forall i | 0 <= i < n
      ensures i in all
    {
      assert all[i] == i;
    }
  }

  /** How many elements the Python slice `xs[:n]` keeps from a sequence of
      length `len`; a negative `n` counts from the end. */
  function SliceLen(n: int, len: nat): nat {
    if n >= 0 then Min(n, len) else Max(len + n, 0)
  }

  /** The distance of every point to the query, in lattice order. */
  function Distances(points: seq<Point>, q: Point): (ds: seq<real>)
    ensures |ds| == |points|
    ensures forall i :: 0 <= i < |points| ==> ds[i] == DistSq(points[i], q)
  {
    seq(|points|, i requires 0 <= i < |points| => DistSq(points[i], q))
  }

  /** The reference meaning of "the k nearest points", up to ties: k distinct
      positions, listed nearest first, and no position left out is nearer
      than a chosen one. */
  predicate IsNearestSelection(points: seq<Point>, q: Point, k: nat, idx: seq<nat>) {
    && |idx| == k
    && (forall a :: 0 <= a < |idx| ==> idx[a] < |points|)
    && Distinct(idx)
    && (forall a, b :: 0 <= a < b < |idx| ==> DistSq(points[idx[a]], q) <= DistSq(points[idx[b]], q))
    && (forall j, a :: 0 <= j < |points| && j !in idx && 0 <= a < |idx| ==>
          DistSq(points[idx[a]], q) <= DistSq(points[j], q))
  }

  /** A prefix of a key-sorted permutation of all positions is a nearest selection. */
  lemma SortedPrefixIsNearest(points: seq<Point>, q: Point, perm: seq<nat>, k: nat)
    requires k <= |points|
    requires |perm| == |points| && InRange(Distances(points, q), perm)
    requires forall i :: 0 <= i < |points| ==> i in perm
    requires Distinct(perm) && SortedBy(Distances(points, q), perm)
    ensures IsNearestSelection(points, q, k, perm[..k])
  {
    var ds := Distances(points, q);
    var idx := perm[..k];
    assert forall a :: 0 <= a < |idx| ==> idx[a] == perm[a];
    assert Distinct(idx);
    forall a, b | 0 <= a < b < |idx|
      ensures DistSq(points[idx[a]], q) <= DistSq(points[idx[b]], q)
    {
      assert ds[perm[a]] <= ds[perm[b]];
    }
    forall j, a | 0 <= j < |points| && j !in idx && 0 <= a < |idx|
      ensures DistSq(points[idx[a]], q) <= DistSq(points[j], q)
    {
      assert j in perm;
      var b :| 0 <= b < |perm| && perm[b] == j;
      assert b >= k;
      assert ds[perm[a]] <= ds[perm[b]];
    }
  }

  /** The positions of the chosen points: the distance-sorting permutation,
      cut by a Python slice of length `n`. */
  function ClosestIndices(points: seq<Point>, q: Point, n: int): (idx: seq<nat>)
    ensures IsNearestSelection(points, q, SliceLen(n, |points|), idx)
  {
    var perm := Argsort(Distances(points, q));
    SortedPrefixIsNearest(points, q, perm, SliceLen(n, |points|));
    perm[..SliceLen(n, |points|)]
  }

  /** `select_closest_points(latitude, longitude, n_points)` over a list of
      points: `min(n, |points|)` of them for `n >= 0` (a negative `n` drops
      that many from the end of the ranking), nearest first, each a point of
      the list, none twice when the list has no repeats, and none nearer to
      the query than a point left out. */
  function SelectClosestPoints(points: seq<Point>, q: Point, n: int): (r: seq<Point>)
    ensures |r| == SliceLen(n, |points|)
    ensures n >= 0 ==> |r| == Min(n, |points|)
    ensures forall a :: 0 <= a < |r| ==> r[a] in points
    ensures Distinct(points) ==> Distinct(r)
    ensures forall a, b :: 0 <= a < b < |r| ==> DistSq(r[a], q) <= DistSq(r[b], q)
    ensures forall p, a :: p in points && p !in r && 0 <= a < |r| ==> DistSq(r[a], q) <= DistSq(p, q)
  {
    var idx := ClosestIndices(points, q, n);
    var r := seq(|idx|, a requires 0 <= a < |idx| => points[idx[a]]);
    SelectionFacts(points, q, idx, r);
    r
  }

  lemma SelectionFacts(points: seq<Point>, q: Point, idx: seq<nat>, r: seq<Point>)
    requires IsNearestSelection(points, q, |idx|, idx)
    requires |r| == |idx| && forall a :: 0 <= a < |idx| ==> r[a] == points[idx[a]]
    ensures Distinct(points) ==> Distinct(r)
    ensures forall p, a :: p in points && p !in r && 0 <= a < |r| ==> DistSq(r[a], q) <= DistSq(p, q)
  {
    forall p, a | p in points && p !in r && 0 <= a < |r|
      ensures DistSq(r[a], q) <= DistSq(p, q)
    {
      var j :| 0 <= j < |points| && points[j] == p;
      assert j !in idx;
    }
  }

  /** A point strictly nearer than every other point is ranked first whenever
      at least one point is kept, whatever order ties elsewhere take. */
  lemma StrictNearestIsFirst(points: seq<Point>, q: Point, n: int, t: nat)
    requires t < |points| && SliceLen(n, |points|) >= 1
    requires forall j :: 0 <= j < |points| && j != t ==> DistSq(points[t], q) < DistSq(points[j], q)
    ensures SelectClosestPoints(points, q, n)[0] == points[t]
  {
    var idx := ClosestIndices(points, q, n);
    assert idx[0] == t;
  }

  /** A query that is itself a node of a duplicate-free point list selects
      that node first. */
  lemma ExactHitIsFirst(points: seq<Point>, q: Point, n: int)
    requires Distinct(points) && q in points && SliceLen(n, |points|) >= 1
    ensures SelectClosestPoints(points, q, n)[0] == q
  {
    var t :| 0 <= t < |points| && points[t] == q;
    forall j | 0 <= j < |points| && j != t
      ensures DistSq(points[t], q) < DistSq(points[j], q)
    {
      DistSqZeroOnlyAtQuery(points[t], q);
      DistSqZeroOnlyAtQuery(points[j], q);
    }
    StrictNearestIsFirst(points, q, n, t);
  }

  /** When `n` is at least the number of points, the slice keeps the whole
      ranking, so every point is returned. */
  lemma WholeListWhenNCoversIt(points: seq<Point>, q: Point, n: int)
    requires n >= |points|
    ensures forall p :: p in points ==> p in SelectClosestPoints(points, q, n)
  {
    var perm := Argsort(Distances(points, q));
    assert ClosestIndices(points, q, n) == perm;
    var r := SelectClosestPoints(points, q, n);
    forall p | p in points
      ensures p in r
    {
      var j :| 0 <= j < |points| && points[j] == p;
      assert j in perm;
      var a :| 0 <= a < |perm| && perm[a] == j;
      assert r[a] == p;
    }
  }

  /** `GridPointSelector(lat_range, lon_range, step).select_closest_points`:
      the selection over the lattice of `g`. The lattice has no repeated node,
      so no point is returned twice. */
  function SelectClosest(g: GridSpec, q: Point, n: int): (r: seq<Point>)
    requires g.step > 0.0
    ensures |r| == SliceLen(n, |LatticePoints(g)|)
    ensures Distinct(r)
    ensures forall a :: 0 <= a < |r| ==> r[a].lat in Lats(g) && r[a].lon in Lons(g)
    ensures forall a, b :: 0 <= a < b < |r| ==> DistSq(r[a], q) <= DistSq(r[b], q)
    ensures forall p, a :: p in LatticePoints(g) && p !in r && 0 <= a < |r| ==> DistSq(r[a], q) <= DistSq(p, q)
  {
    var r := SelectClosestPoints(LatticePoints(g), q, n);
    assert forall a :: 0 <= a < |r| ==> r[a] in LatticePoints(g);
    r
  }


  /** A lattice node strictly nearer to the query than every other node is
      the first point returned. */
  lemma UniqueNearestIsFirst(g: GridSpec, q: Point, n: int, best: Point)
    requires g.step > 0.0 && n >= 1 && best in LatticePoints(g)
    requires forall p :: p in LatticePoints(g) && p != best ==> DistSq(best, q) < DistSq(p, q)
    ensures |SelectClosest(g, q, n)| >= 1
    ensures SelectClosest(g, q, n)[0] == best
  {
    var pts := LatticePoints(g);
    var t :| 0 <= t < |pts| && pts[t] == best;
    forall j | 0 <= j < |pts| && j != t
      ensures DistSq(pts[t], q) < DistSq(pts[j], q)
    {
      assert pts[j] != pts[t];
    }
    StrictNearestIsFirst(pts, q, n, t);
  }
}

=== FILE: team_form.dfy ===
/** The decision logic of the `KMZGenerator` Tk form
    (pyatmo/kmz_generator_class.py), lifted out of the widgets: the per-team
    model catalogue, the checkbox state kept in `model_vars`, the validation
    of the typed inputs, and the path from "Generate" to the call of the map
    export. What the widgets and dialogs return is passed in as parameters. */
module TeamForm {
  import opened Basics
  import opened Text
  import opened Lattice
  import opened Grouping
  import opened MapGenerator

  /** The content of the team combobox. It is editable, so any text can occur. */
  type Team = string

  /** `_get_models_for_team(team)`: the ten models offered to a known team;
      `None` (the implicit return) for any other text. */
  function ModelsForTeam(team: Team): (r: Option<seq<ModelName>>)
    ensures r.Some? <==> team == "SIROCCO" || team == "NEBBO"
    ensures r.Some? ==> |r.value| == 10 && Distinct(r.value)
  {
    if team == "SIROCCO" then
      Some(["ECMWF", "GFS_0.5", "GFS_0.25", "UKMET", "NCEP", "DWD", "METEOFRANCE", "CMCC", "JMA", "ICON"])
    else if team == "NEBBO" then
      Some(["ECMWF", "GFS_0.5", "GFS_0.25", "UKMET", "NCEP", "DWD", "METEOFRANCE", "CMCC", "JMA", "ECCC"])
    else None
  }

  /** The two team lists agree on their first nine models, which are exactly
      the models the map catalogue knows; they differ only in the last one,
      and neither of those last models has a grid in the catalogue. */
  lemma TeamListsDifferOnlyInLast()
    ensures var s := ModelsForTeam("SIROCCO").value;
      var b := ModelsForTeam("NEBBO").value;
      && s[..9] == b[..9]
      && s[9] == "ICON" && b[9] == "ECCC"
      && (forall m :: m in s[..9] <==> m in Catalogue)
      && s[9] !in Catalogue && b[9] !in Catalogue
  {
    var s := ModelsForTeam("SIROCCO").value;
    assert s[..9] == ["ECMWF", "GFS_0.5", "GFS_0.25", "UKMET", "NCEP", "DWD", "METEOFRANCE", "CMCC", "JMA"];
  }

  /** Ticking a team's own last model ("ICON" or "ECCC") makes every export
      raise the catalogue's KeyError, whatever else is requested. */
  lemma TeamOnlyModelRaises(team: Team, q: Point, n: int, models: seq<ModelName>, filename: Option<string>, dir: Option<string>)
    requires ModelsForTeam(team).Some?
    requires ModelsForTeam(team).value[9] in models
    ensures var r := CreateMap(q, n, filename, dir, models);
      r.Err? && r.error.UnknownModel? && r.error.name !in Catalogue
    ensures var r := CreateMapKml(q, n, filename, dir, models);
      r.Err? && r.error.UnknownModel? && r.error.name !in Catalogue
  {
    TeamLastModelUnknown(team);
    UnknownModelRaises(q, n, filename, dir, models, ModelsForTeam(team).value[9]);
  }

  lemma TeamLastModelUnknown(team: Team)
    requires ModelsForTeam(team).Some?
    ensures ModelsForTeam(team).value[9] !in Catalogue
  {
    TeamListsDifferOnlyInLast();
  }

  /** One checkbox variable of `model_vars`: the model and its ticked state. */
  datatype Checkbox = Checkbox(model: ModelName, ticked: bool)

  /** `self.model_vars`, a dict kept in insertion order. */
  type ModelVars = seq<Checkbox>

  /** The keys of `model_vars`, in insertion order. */
  function Keys(vars: ModelVars): (ks: seq<ModelName>)
    ensures |ks| == |vars|
  {
    if vars == [] then [] else [vars[0].model] + Keys(vars[1..])
  }

  /** Each model has at most one variable. */
  predicate UniqueKeys(vars: ModelVars) {
    Distinct(Keys(vars))
  }

  /** `self.model_vars[m].get()`, or `None` when `m` has no variable. */
  function Lookup(vars: ModelVars, m: ModelName): (r: Option<bool>)
    ensures r.Some? <==> m in Keys(vars)
  {
    if vars == [] then None
    else if vars[0].model == m then Some(vars[0].ticked)
    else Lookup(vars[1..], m)
  }

  /** `self.model_vars[m] = BooleanVar(value=b)`: a known key keeps its place
      and takes the new value, a new key goes at the end, every other key
      keeps its value. */
  function Assign(vars: ModelVars, m: ModelName, b: bool): (r: ModelVars)
    ensures Keys(r) == if m in Keys(vars) then Keys(vars) else Keys(vars) + [m]
    ensures Lookup(r, m) == Some(b)
    ensures forall k :: k != m ==> Lookup(r, k) == Lookup(vars, k)
  {
    if vars == [] then [Checkbox(m, b)]
    else if vars[0].model == m then
      var r := [Checkbox(m, b)] + vars[1..];
      assert r[1..] == vars[1..];
      r
    else
      var rest := Assign(vars[1..], m, b);
      var r := [vars[0]] + rest;
      assert r[1..] == rest;
      assert Keys(r) == [vars[0].model] + Keys(rest);
      assert m in Keys(vars) <==> m in Keys(vars[1..]);
      r
  }

  /** Assigning keeps the keys unique. */
  lemma AssignKeepsKeysUnique(vars: ModelVars, m: ModelName, b: bool)
    requires UniqueKeys(vars)
    ensures UniqueKeys(Assign(vars, m, b))
  {
    if m !in Keys(vars) {
      DistinctConcat(Keys(vars), [m]);
    }
  }

  /** The default state of a freshly created checkbox. */
  predicate TickedByDefault(m: ModelName) {
    m == "ECMWF" || m == "GFS_0.5"
  }

  /** The loop of `_update_models` over the team's models. */
  function AssignAll(vars: ModelVars, models: seq<ModelName>): (r: ModelVars)
    requires UniqueKeys(vars)
    ensures UniqueKeys(r)
    ensures forall m :: m in models ==> Lookup(r, m) == Some(TickedByDefault(m))
    ensures forall k :: k !in models ==> Lookup(r, k) == Lookup(vars, k)
  {
    if models == [] then vars
    else
      var init := models[..|models| - 1];
      var last := models[|models| - 1];
      assert forall m :: m in models <==> m in init || m == last;
      var prev := AssignAll(vars, init);
      AssignKeepsKeysUnique(prev, last, TickedByDefault(last));
      Assign(prev, last, TickedByDefault(last))
  }

  /** The loop only adds keys: the keys before it are the first keys after
      it, in the same order. */
  lemma {:induction false} AssignAllKeepsKeys(vars: ModelVars, models: seq<ModelName>)
    requires UniqueKeys(vars)
    ensures var ks := Keys(AssignAll(vars, models));
      |ks| >= |Keys(vars)| && ks[..|Keys(vars)|] == Keys(vars)
  {
    if models != [] {
      var init := models[..|models| - 1];
      var last := models[|models| - 1];
      AssignAllKeepsKeys(vars, init);
      var prev := AssignAll(vars, init);
      AssignAllLast(vars, models);
      var r := Assign(prev, last, TickedByDefault(last));
      assert Keys(r)[..|Keys(prev)|] == Keys(prev);
      PrefixOfPrefix(Keys(vars), Keys(prev), Keys(r));
    }
  }

  /** The loop's last step assigns the last model. */
  lemma AssignAllLast(vars: ModelVars, models: seq<ModelName>)
    requires UniqueKeys(vars) && models != []
    ensures var last := models[|models| - 1];
      AssignAll(vars, models) == Assign(AssignAll(vars, models[..|models| - 1]), last, TickedByDefault(last))
  {
  }

  /** A prefix of a prefix is a prefix. */
  lemma PrefixOfPrefix<T>(a: seq<T>, b: seq<T>, c: seq<T>)
    requires |a| <= |b| <= |c| && b[..|a|] == a && c[..|b|] == b
    ensures c[..|a|] == a
  {
    assert c[..|a|] == c[..|b|][..|a|];
  }

  /** Assigning models that have no variable yet, each once, appends them
      as keys in the loop's order. */
  lemma {:induction false} AssignAllFresh(vars: ModelVars, models: seq<ModelName>)
    requires UniqueKeys(vars) && Distinct(models)
    requires forall m :: m in models ==> m !in Keys(vars)
    ensures Keys(AssignAll(vars, models)) == Keys(vars) + models
  {
    if models != [] {
      var init := models[..|models| - 1];
      var last := models[|models| - 1];
      assert models == init + [last];
      assert Distinct(init) && last !in init;
      assert forall m :: m in init ==> m in models;
      AssignAllFresh(vars, init);
      AssignAllLast(vars, models);
      FreshAssignAppends(AssignAll(vars, init), Keys(vars), init, last, TickedByDefault(last));
    }
  }

  /** Assigning a model that is neither among the old keys nor among the
      models assigned since appends it. */
  lemma FreshAssignAppends(prev: ModelVars, before: seq<ModelName>, added: seq<ModelName>, m: ModelName, b: bool)
    requires Keys(prev) == before + added && m !in before && m !in added
    ensures Keys(Assign(prev, m, b)) == before + (added + [m])
  {
    assert m !in Keys(prev);
  }

  /** `_update_models()`: a new checkbox, ticked only for ECMWF and GFS_0.5,
      for every model of the team; the variables of models the team does not
      offer keep their last state, since `model_vars` is never cleared.
      `None` is the TypeError of iterating over the `None` an unknown team
      yields. */
  function UpdateModels(vars: ModelVars, team: Team): (r: Option<ModelVars>)
    requires UniqueKeys(vars)
    ensures r.Some? <==> ModelsForTeam(team).Some?
    ensures r.Some? ==> UniqueKeys(r.value)
    ensures r.Some? ==> forall m :: m in ModelsForTeam(team).value ==>
      Lookup(r.value, m) == Some(TickedByDefault(m))
    ensures r.Some? ==> forall k :: k !in ModelsForTeam(team).value ==>
      Lookup(r.value, k) == Lookup(vars, k)
  {
    match ModelsForTeam(team)
    case None => None
    case Some(models) => Some(AssignAll(vars, models))
  }

  /** No key is ever removed: the keys before an update are the first keys
      after it, in the same order. */
  lemma UpdateModelsNeverClears(vars: ModelVars, team: Team)
    requires UniqueKeys(vars) && UpdateModels(vars, team).Some?
    ensures var ks := Keys(UpdateModels(vars, team).value);
      |ks| >= |Keys(vars)| && ks[..|Keys(vars)|] == Keys(vars)
  {
    AssignAllKeepsKeys(vars, ModelsForTeam(team).value);
  }

  /** The user clicking the checkbox of `m`. */
  function SetTicked(vars: ModelVars, m: ModelName, b: bool): (r: ModelVars)
    ensures Keys(r) == Keys(vars)
    ensures m in Keys(vars) ==> Lookup(r, m) == Some(b)
    ensures forall k :: k != m ==> Lookup(r, k) == Lookup(vars, k)
  {
    if vars == [] then []
    else [if vars[0].model == m then Checkbox(m, b) else vars[0]] + SetTicked(vars[1..], m, b)
  }

  /** The models whose checkbox variable is ticked, in the dict's key order. */
  function SelectedModels(vars: ModelVars): (r: seq<ModelName>)
    ensures forall m :: m in r ==> m in Keys(vars)
  {
    if vars == [] then []
    else (if vars[0].ticked then [vars[0].model] else []) + SelectedModels(vars[1..])
  }

  /** With one variable per model, a model is selected exactly when its
      variable is ticked, and no model is selected twice. */
  lemma {:induction false} SelectedModelsAreTicked(vars: ModelVars, m: ModelName)
    requires UniqueKeys(vars)
    ensures m in SelectedModels(vars) <==> Lookup(vars, m) == Some(true)
    ensures Distinct(SelectedModels(vars))
  {
    if vars != [] {
      var tail := vars[1..];
      assert Keys(vars) == [vars[0].model] + Keys(tail);
      assert Keys(tail) == Keys(vars)[1..];
      SelectedModelsAreTicked(tail, m);
      var head := if vars[0].ticked then [vars[0].model] else [];
      forall k | 0 <= k < |Keys(tail)|
        ensures Keys(tail)[k] != vars[0].model
      {
        assert Keys(tail)[k] == Keys(vars)[k + 1] && Keys(vars)[0] == vars[0].model;
      }
      DistinctConcat(head, SelectedModels(tail));
    }
  }

  /** `b` keeps some of the elements of `a`, in their order. */
  predicate SubsequenceOf<T(==)>(b: seq<T>, a: seq<T>) {
    if a == [] then b == []
    else (b != [] && b[0] == a[0] && SubsequenceOf(b[1..], a[1..])) || SubsequenceOf(b, a[1..])
  }

  /** Filters `models` down to those in `allowed`, in order. */
  function KeepAllowed(models: seq<ModelName>, allowed: seq<ModelName>): (r: seq<ModelName>)
    ensures forall m :: m in r <==> m in models && m in allowed
    ensures SubsequenceOf(r, models)
  {
    if models == [] then []
    else
      var rest := KeepAllowed(models[1..], allowed);
      assert forall m :: m in models <==> m == models[0] || m in models[1..];
      if models[0] in allowed then
        assert ([models[0]] + rest)[1..] == rest;
        [models[0]] + rest
      else rest
  }

  /** `valid_models`: the selected models the team offers, in selection
      order. `None` is the TypeError of `model in None` when the team is
      unknown, which only happens if at least one model is selected. */
  function ValidModels(models: seq<ModelName>, team: Team): (r: Option<seq<ModelName>>)
    ensures r.None? <==> models != [] && ModelsForTeam(team).None?
    ensures r.Some? ==> SubsequenceOf(r.value, models)
    ensures r.Some? ==> forall m :: m in r.value <==> m in models && m in ModelsForTeam(team).value
  {
    match ModelsForTeam(team)
    case None => if models == [] then Some([]) else None
    case Some(allowed) => Some(KeepAllowed(models, allowed))
  }

  /** The fields `_get_input_values` returns when validation passes. */
  datatype Inputs = Inputs(asset: string, lat: real, lon: real, models: seq<ModelName>, nPoints: int, team: Team)

  /** The coordinate range each team's field labels announce
      (`_update_lat_lon_labels`); the labels of any other team announce none. */
  datatype Bounds = Bounds(latLo: real, latHi: real, lonLo: real, lonHi: real)

  function AnnouncedBounds(team: Team): Option<Bounds> {
    if team == "NEBBO" then Some(Bounds(-90.0, 90.0, 0.0, 360.0))
    else if team == "SIROCCO" then Some(Bounds(-90.0, 90.0, -180.0, 180.0))
    else None
  }

  /** The range check of `_get_input_values`: `False` is the ValueError it raises. */
  function CoordinatesAccepted(team: Team, lat: real, lon: real): bool {
    if team == "SIROCCO" then -90.0 <= lat <= 90.0 && -180.0 <= lon <= 180.0
    else if team == "NEBBO" then -90.0 <= lat <= 90.0 && 0.0 <= lon <= 360.0
    else true
  }

  /** The validation enforces exactly the ranges the labels announce,
      bounds included, and nothing for a team with unlabelled fields. */
  lemma ValidationMatchesLabels(team: Team, lat: real, lon: real)
    ensures CoordinatesAccepted(team, lat, lon) <==>
      match AnnouncedBounds(team)
      case None => true
      case Some(b) => b.latLo <= lat <= b.latHi && b.lonLo <= lon <= b.lonHi
  {
  }

  /** `_get_input_values()`. The widget contents are parameters: the asset
      text, the results of `float()` on the two coordinate fields and of
      `int()` on the point count (`None` being the ValueError of an
      unparsable text), the checkbox variables and the team text. `None` is
      the all-`None` tuple returned after an error dialog. */
  function GetInputValues(assetText: string, lat: Option<real>, lon: Option<real>, vars: ModelVars,
                          nPoints: Option<int>, team: Team): (r: Option<Inputs>)
    ensures Strip(assetText) == [] ==> r.None?
    ensures r.Some? <==>
      && Strip(assetText) != []
      && lat.Some? && lon.Some? && nPoints.Some?
      && CoordinatesAccepted(team, lat.value, lon.value)
    ensures r.Some? ==>
      r.value == Inputs(Strip(assetText), lat.value, lon.value, SelectedModels(vars), nPoints.value, team)
  {
    var asset := Strip(assetText);
    if asset == [] then None
    else if lat.None? || lon.None? || nPoints.None? then None
    else if !CoordinatesAccepted(team, lat.value, lon.value) then None
    else Some(Inputs(asset, lat.value, lon.value, SelectedModels(vars), nPoints.value, team))
  }

  /** Validation against the labelled ranges, stated through the labels: the
      inputs pass exactly when the asset name is not blank, every number
      parsed, and the point lies within the range the team's labels show. */
  lemma InputsAcceptedWithinLabels(assetText: string, lat: real, lon: real, vars: ModelVars, n: int, team: Team)
    requires Strip(assetText) != []
    ensures GetInputValues(assetText, Some(lat), Some(lon), vars, Some(n), team).Some? <==>
      match AnnouncedBounds(team)
      case None => true
      case Some(b) => b.latLo <= lat <= b.latHi && b.lonLo <= lon <= b.lonHi
  {
    ValidationMatchesLabels(team, lat, lon);
  }

  /** The keyword arguments of a call into the map module. */
  datatype ExportCall = ExportCall(fileType: string, lat: real, lon: real, nPoints: int,
                                   filename: string, pathFile: string, models: seq<ModelName>,
                                   team: Option<Team>)

  /** Where `_generate_file` stops. */
  datatype Outcome =
    | NoInput             // validation failed
    | Cancelled           // the save dialog returned an empty path
    | OverwriteDeclined   // the chosen file exists and the user said no
    | UnknownTeam         // TypeError in the `valid_models` filter
    | Invoked(call: ExportCall)

  /** `_generate_file(file_type, create_function)` as written. The save
      dialog's answer, the set of existing paths and the user's answer to the
      overwrite question are parameters. */
  function GenerateFile(fileType: string, inputs: Option<Inputs>, dialogPath: string,
                        existing: set<string>, confirmOverwrite: bool): (r: Outcome)
    ensures inputs.None? ==> r == NoInput
    ensures r.Invoked? ==> dialogPath != [] && (dialogPath !in existing || confirmOverwrite)
    ensures r.Invoked? ==> r.call.fileType == fileType && r.call.nPoints == inputs.value.nPoints
    ensures r.Invoked? ==> r.call.lat == inputs.value.lat && r.call.lon == inputs.value.lon
    ensures r.Invoked? ==> r.call.pathFile == Dirname(dialogPath) && r.call.filename == inputs.value.asset
    ensures r.Invoked? ==> Some(r.call.models) == ValidModels(inputs.value.models, inputs.value.team)
    ensures r.Invoked? ==> r.call.team == Some(inputs.value.team)
    ensures (&& inputs.Some? && dialogPath != [] && (dialogPath !in existing || confirmOverwrite)
             && ValidModels(inputs.value.models, inputs.value.team).Some?) ==> r.Invoked?
  {
    if inputs.None? then NoInput
    else if dialogPath == [] then Cancelled
    else if dialogPath in existing && !confirmOverwrite then OverwriteDeclined
    else
      var i := inputs.value;
      match ValidModels(i.models, i.team)
      case None => UnknownTeam
      case Some(valid) =>
        Invoked(ExportCall(fileType, i.lat, i.lon, i.nPoints, i.asset, Dirname(dialogPath), valid, Some(i.team)))
  }

  /** What the export produces. */
  datatype Export = Html(html: HtmlExport) | Kml(kml: KmlExport)

  /** Why a call into the map module fails. */
  datatype CallError =
    | UnexpectedKeyword(name: string)  // TypeError from the call's signature
    | MapFailed(error: MapError)

  /** The module-level `create_map` / `create_map_kml` take latitude,
      longitude, n_points, filename, path_file and models, and no `team`:
      a call carrying `team` raises before any work is done. */
  function Dispatch(call: ExportCall): (r: Result<Export, CallError>)
    ensures call.team.Some? ==> r == Err(UnexpectedKeyword("team"))
    ensures r.Ok? ==> call.fileType == "kml" ==> r.value.Kml?
    ensures r.Ok? && r.value.Html? ==> FullPath(Some(call.filename), Some(call.pathFile), "html") == Some(r.value.html.path)
    ensures r.Ok? && r.value.Kml? ==> FullPath(Some(call.filename), Some(call.pathFile), "kml") == Some(r.value.kml.path)
  {
    if call.team.Some? then Err(UnexpectedKeyword("team"))
    else
      var q := Point(call.lat, call.lon);
      var dir := Some(call.pathFile);
      if call.fileType == "kml" then
        match CreateMapKml(q, call.nPoints, Some(call.filename), dir, call.models)
        case Err(e) => Err(MapFailed(e))
        case Ok(k) => Ok(Kml(k))
      else
        match CreateMap(q, call.nPoints, Some(call.filename), dir, call.models)
        case Err(e) => Err(MapFailed(e))
        case Ok(h) => Ok(Html(h))
  }

  /** As written, no click of a "Generate" button can produce a file: every
      valid form does reach the call, and every call that `_generate_file`
      makes carries `team`, which the map functions reject. */
  lemma GenerateFileNeverExports(fileType: string, inputs: Option<Inputs>, dialogPath: string,
                                 existing: set<string>, confirm: bool)
    ensures var o := GenerateFile(fileType, inputs, dialogPath, existing, confirm);
      o.Invoked? ==> Dispatch(o.call) == Err(UnexpectedKeyword("team"))
    ensures (&& inputs.Some? && dialogPath != [] && (dialogPath !in existing || confirm)
             && ValidModels(inputs.value.models, inputs.value.team).Some?) ==>
      var o := GenerateFile(fileType, inputs, dialogPath, existing, confirm);
      o.Invoked? && Dispatch(o.call) == Err(UnexpectedKeyword("team"))
  {
  }

  /** The path the export writes for an asset and a dialog answer: the asset
      name, with its extension, in the dialog's directory. */
  function TargetPath(fileType: string, asset: string, dialogPath: string): (r: string)
    ensures FullPath(Some(asset), Some(Dirname(dialogPath)), fileType) == Some(r)
  {
    Join(Dirname(dialogPath), WithExtension(asset, fileType))
  }

  lemma DialogDirectoryExample()
    ensures Dirname("/d/B.html") == "/d"
  {
    var p := "/d/B.html";
    assert p[2] == '/' && p[0] == '/';
    assert forall k :: 3 <= k < |p| ==> p[k] != '/';
    assert AfterLastSlash(p) == 3;
    assert p[..3] == "/d/" && p[..3][1] != '/';
    assert StripSlashes("/d/") == "/d";
  }

  lemma TargetPathExample()
    ensures TargetPath("html", "A", "/d/B.html") == "/d/A.html"
  {
    DialogDirectoryExample();
    assert !EndsWith(Lower("A"), ".html");
    assert WithExtension("A", "html") == "A.html";
    assert Join("/d", "A.html") == "/d/A.html";
  }

  /** SIROCCO offers ECMWF, so a form asking for it passes the team filter
      and the lemma below applies to it. */
  lemma SiroccoKeepsEcmwf()
    ensures ValidModels(["ECMWF"], "SIROCCO") == Some(["ECMWF"])
  {
    var allowed := ModelsForTeam("SIROCCO").value;
    assert "ECMWF" in allowed;
    assert KeepAllowed(["ECMWF"], allowed) == ["ECMWF"] by {
      assert ["ECMWF"][1..] == [];
    }
  }

  /** The overwrite guard asks about the dialog's path, but the export writes
      to the asset's name in that directory. A dialog answer renamed by the
      user lets an existing file be replaced without any question. */
  lemma OverwriteGuardChecksWrongPath(i: Inputs)
    requires i.asset == "A" && ValidModels(i.models, i.team).Some?
    ensures var o := GenerateFile("html", Some(i), "/d/B.html", {"/d/A.html"}, false);
      && o.Invoked?
      && TargetPath("html", o.call.filename, "/d/B.html") == "/d/A.html"
  {
    var existing: set<string> := {"/d/A.html"};
    assert "/d/B.html" !in existing by {
      assert "/d/B.html"[3] != "/d/A.html"[3];
    }
    UnguardedFormIsInvoked(i, "/d/B.html", existing);
    TargetPathExample();
  }

  /** A valid form whose dialog path is new reaches the export call, named
      after the asset. */
  lemma UnguardedFormIsInvoked(i: Inputs, dialogPath: string, existing: set<string>)
    requires ValidModels(i.models, i.team).Some? && dialogPath != [] && dialogPath !in existing
    ensures GenerateFile("html", Some(i), dialogPath, existing, false).Invoked?
    ensures GenerateFile("html", Some(i), dialogPath, existing, false).call.filename == i.asset
  {
  }

  /** `_generate_file` as evidently intended: the existence check asks about
      the file that will actually be written, and the call leaves out the
      `team` keyword the map functions do not accept. */
  function GenerateFileSafe(fileType: string, inputs: Option<Inputs>, dialogPath: string,
                            existing: set<string>, confirmOverwrite: bool): (r: Outcome)
    ensures inputs.None? ==> r == NoInput
    ensures r.Invoked? ==> r.call.team.None?
    ensures r.Invoked? ==> r.call.fileType == fileType && r.call.nPoints == inputs.value.nPoints
    ensures r.Invoked? ==> r.call.lat == inputs.value.lat && r.call.lon == inputs.value.lon
    ensures r.Invoked? ==> r.call.pathFile == Dirname(dialogPath) && r.call.filename == inputs.value.asset
    ensures r.Invoked? ==>
      dialogPath != [] &&
      (TargetPath(fileType, inputs.value.asset, dialogPath) !in existing || confirmOverwrite)
    ensures r.Invoked? ==> Some(r.call.models) == ValidModels(inputs.value.models, inputs.value.team)
    ensures (&& inputs.Some? && dialogPath != []
             && (TargetPath(fileType, inputs.value.asset, dialogPath) !in existing || confirmOverwrite)
             && ValidModels(inputs.value.models, inputs.value.team).Some?) ==> r.Invoked?
  {
    if inputs.None? then NoInput
    else if dialogPath == [] then Cancelled
    else
      var i := inputs.value;
      if TargetPath(fileType, i.asset, dialogPath) in existing && !confirmOverwrite then OverwriteDeclined
      else
        match ValidModels(i.models, i.team)
        case None => UnknownTeam
        case Some(valid) =>
          Invoked(ExportCall(fileType, i.lat, i.lon, i.nPoints, i.asset, Dirname(dialogPath), valid, None))
  }

  /** With the corrected form, an export that succeeds writes exactly the
      path the overwrite guard asked about, so an existing file is only ever
      replaced after the user agreed. */
  lemma SafeExportWritesCheckedPath(fileType: string, inputs: Option<Inputs>, dialogPath: string,
                                    existing: set<string>, confirm: bool)
    requires fileType == "html" || fileType == "kml"
    ensures var o := GenerateFileSafe(fileType, inputs, dialogPath, existing, confirm);
      o.Invoked? && Dispatch(o.call).Ok? ==>
        var written := if fileType == "kml" then Dispatch(o.call).value.kml.path else Dispatch(o.call).value.html.path;
        && written == TargetPath(fileType, inputs.value.asset, dialogPath)
        && (written !in existing || confirm)
  {
    var o := GenerateFileSafe(fileType, inputs, dialogPath, existing, confirm);
    if o.Invoked? && Dispatch(o.call).Ok? {
      var i := inputs.value;
      assert FullPath(Some(i.asset), Some(Dirname(dialogPath)), fileType) == Some(TargetPath(fileType, i.asset, dialogPath));
    }
  }

  /** With the corrected form, a valid request for catalogue models reaches
      the map module; the HTML export then succeeds, and the KML export
      succeeds exactly when every chosen point is shared by two or more of
      the models. */
  lemma SafeExportSucceeds(fileType: string, inputs: Inputs, dialogPath: string,
                           existing: set<string>, confirm: bool)
    requires fileType == "html" || fileType == "kml"
    requires ModelsForTeam(inputs.team).Some?
    requires forall m :: m in inputs.models ==> m in Catalogue
    requires dialogPath != [] && (TargetPath(fileType, inputs.asset, dialogPath) !in existing || confirm)
    ensures var o := GenerateFileSafe(fileType, Some(inputs), dialogPath, existing, confirm);
      && o.Invoked?
      && (forall m :: m in o.call.models ==> m in Catalogue)
      && (Dispatch(o.call).Ok? <==>
            fileType == "html" || EveryPointShared(Point(inputs.lat, inputs.lon), inputs.nPoints, o.call.models))
  {
    var o := GenerateFileSafe(fileType, Some(inputs), dialogPath, existing, confirm);
    var q := Point(inputs.lat, inputs.lon);
    assert forall m :: m in o.call.models ==> m in Catalogue;
    var dir := Some(Dirname(dialogPath));
    if fileType == "kml" {
      CreateMapKmlOutcome(q, inputs.nPoints, Some(inputs.asset), dir, o.call.models);
    } else {
      CreateMapSucceeds(q, inputs.nPoints, Some(inputs.asset), dir, o.call.models);
    }
  }

  /** The form's initial state: `model_vars` starts empty and is filled for
      the default team "SIROCCO". */
  function InitialVars(): (r: ModelVars)
    ensures UniqueKeys(r)
    ensures Keys(r) == ModelsForTeam("SIROCCO").value
    ensures forall m :: m in ModelsForTeam("SIROCCO").value ==> Lookup(r, m) == Some(TickedByDefault(m))
  {
    var models := ModelsForTeam("SIROCCO").value;
    AssignAllFresh([], models);
    assert [] + models == models;
    AssignAll([], models)
  }

  /** A leftover selection: a model the new team does not offer, ticked
      before the switch, survives `_update_models` still ticked and is
      selected; only the `valid_models` filter keeps it out of the export. */
  lemma LeftoverSelectionIsFiltered(vars: ModelVars, m: ModelName, team: Team)
    requires UniqueKeys(vars) && m in Keys(vars)
    requires ModelsForTeam(team).Some? && m !in ModelsForTeam(team).value
    ensures var after := UpdateModels(SetTicked(vars, m, true), team);
      && after.Some?
      && m in SelectedModels(after.value)
      && ValidModels(SelectedModels(after.value), team).Some?
      && m !in ValidModels(SelectedModels(after.value), team).value
  {
    var v1 := SetTicked(vars, m, true);
    var v2 := UpdateModels(v1, team).value;
    assert Lookup(v2, m) == Some(true);
    SelectedModelsAreTicked(v2, m);
  }

  /** In the form as started, "ICON" has a checkbox, so ticking it and then
      choosing NEBBO leaves it selected behind the NEBBO list. */
  lemma IconLeftOverAfterSwitchToNebbo()
    ensures "ICON" in Keys(InitialVars())
    ensures var after := UpdateModels(SetTicked(InitialVars(), "ICON", true), "NEBBO");
      after.Some? && "ICON" in SelectedModels(after.value)
      && "ICON" !in ValidModels(SelectedModels(after.value), "NEBBO").value
  {
    assert "ICON" in ModelsForTeam("SIROCCO").value;
    assert "ICON" !in ModelsForTeam("NEBBO").value;
    LeftoverSelectionIsFiltered(InitialVars(), "ICON", "NEBBO");
  }
}

=== FILE: text.dfy ===
/** The handful of Python string and POSIX path operations the core uses:
    `str.strip`, `str.lower`, `str.endswith`, `os.path.dirname` and
    `os.path.join`. */
module Text {

  /** Python's `str.isspace` on one character: the ASCII separators and the
      Unicode space characters. */
  predicate IsSpace(c: char) {
    || ('\U{9}' <= c <= '\U{D}')
    || ('\U{1C}' <= c <= '\U{20}')
    || c == '\U{85}' || c == '\U{A0}' || c == '\U{1680}'
    || ('\U{2000}' <= c <= '\U{200A}')
    || c == '\U{2028}' || c == '\U{2029}' || c == '\U{202F}' || c == '\U{205F}'
    || c == '\U{3000}'
  }

  /** How many whitespace characters `s` starts with. */
  function LeadingSpaces(s: string): (n: nat)
    ensures n <= |s|
    ensures forall k :: 0 <= k < n ==> IsSpace(s[k])
    ensures n < |s| ==> !IsSpace(s[n])
  {
    if s != [] && IsSpace(s[0]) then 1 + LeadingSpaces(s[1..]) else 0
  }

  /** How many whitespace characters `s` ends with. */
  function TrailingSpaces(s: string): (n: nat)
    ensures n <= |s|
    ensures forall k :: |s| - n <= k < |s| ==> IsSpace(s[k])
    ensures n < |s| ==> !IsSpace(s[|s| - n - 1])
  {
    if s != [] && IsSpace(s[|s| - 1]) then 1 + TrailingSpaces(s[..|s| - 1]) else 0
  }

  /** Python's `str.strip()` with no argument: the slice of `s` left once the
      leading and the trailing whitespace are dropped. It is empty exactly
      when `s` is all whitespace, and otherwise starts and ends with a
      non-space character. */
  function Strip(s: string): (r: string)
    ensures var lo := LeadingSpaces(s);
      && lo + |r| <= |s| && r == s[lo..lo + |r|]
      && (forall k :: lo + |r| <= k < |s| ==> IsSpace(s[k]))
    ensures r != [] ==> !IsSpace(r[0]) && !IsSpace(r[|r| - 1])
    ensures r == [] <==> forall k :: 0 <= k < |s| ==> IsSpace(s[k])
  {
    var lo := LeadingSpaces(s);
    if lo == |s| then
      assert s[lo..lo] == [];
      []
    else
      var hi := |s| - TrailingSpaces(s);
      assert lo < hi;
      assert s[lo..hi][0] == s[lo];
      s[lo..hi]
  }

  /** `str.lower` on one character; only ASCII letters are folded. */
  function LowerChar(c: char): char {
    if 'A' <= c <= 'Z' then (c as int + 32) as char else c
  }

  /** `str.lower`, folding ASCII letters. */
  function Lower(s: string): (r: string)
    ensures |r| == |s|
  {
    seq(|s|, i requires 0 <= i < |s| => LowerChar(s[i]))
  }

  /** Lower-casing distributes over concatenation. */
  lemma LowerConcat(a: string, b: string)
    ensures Lower(a + b) == Lower(a) + Lower(b)
  {
    assert forall i :: 0 <= i < |a + b| ==> Lower(a + b)[i] == (Lower(a) + Lower(b))[i];
  }

  /** A string already in lower case is left unchanged. */
  predicate IsLower(s: string) {
    forall i :: 0 <= i < |s| ==> !('A' <= s[i] <= 'Z')
  }

  lemma LowerOfLower(s: string)
    requires IsLower(s)
    ensures Lower(s) == s
  {
  }

  /** `str.endswith`. */
  predicate EndsWith(s: string, suffix: string) {
    |suffix| <= |s| && s[|s| - |suffix|..] == suffix
  }

  lemma EndsWithConcat(a: string, b: string)
    ensures EndsWith(a + b, b)
  {
    assert (a + b)[|a + b| - |b|..] == b;
  }

  /** Index just past the last '/' of `p`, or 0 when there is none. */
  function AfterLastSlash(p: string): (i: nat)
    ensures i <= |p|
    ensures i > 0 ==> p[i - 1] == '/'
    ensures forall k :: i <= k < |p| ==> p[k] != '/'
  {
    if p == [] then 0
    else if p[|p| - 1] == '/' then |p|
    else AfterLastSlash(p[..|p| - 1])
  }

  /** Drops trailing '/' characters. */
  function StripSlashes(s: string): (r: string)
    ensures |r| <= |s| && r == s[..|r|]
    ensures forall k :: |r| <= k < |s| ==> s[k] == '/'
    ensures r != [] ==> r[|r| - 1] != '/'
  {
    if s != [] && s[|s| - 1] == '/' then StripSlashes(s[..|s| - 1]) else s
  }

  /** POSIX `os.path.dirname`: everything up to the last '/', without
      trailing slashes unless the head consists of slashes only. */
  function Dirname(p: string): (r: string)
    ensures |r| <= AfterLastSlash(p) && r == p[..|r|]
    ensures forall k :: |r| <= k < AfterLastSlash(p) ==> p[k] == '/'
    ensures r != [] && r[|r| - 1] == '/' ==> forall k :: 0 <= k < |r| ==> r[k] == '/'
  {
    var head := p[..AfterLastSlash(p)];
    if head != [] && exists k :: 0 <= k < |head| && head[k] != '/' then StripSlashes(head) else head
  }

  /** POSIX `os.path.join` of two components. */
  function Join(dir: string, name: string): (r: string)
    ensures EndsWith(r, name)
    ensures |name| > 0 && name[0] == '/' ==> r == name
    ensures !(|name| > 0 && name[0] == '/') ==>
      && |dir| + |name| <= |r| <= |dir| + |name| + 1
      && r[..|dir|] == dir
      && (|r| == |dir| + |name| + 1 ==> r[|dir|] == '/')
      && (dir != [] ==> r[|r| - |name| - 1] == '/')
  {
    if |name| > 0 && name[0] == '/' then name
    else if dir == [] || dir[|dir| - 1] == '/' then (EndsWithConcat(dir, name); dir + name)
    else (EndsWithConcat(dir + "/", name); dir + "/" + name)
  }
}
